=== FILE: README.md ===
# Omnivore library sync and companions, modelled in Dafny

This project models the core of Omnivore's Android **library sync layer**:
- `sync` fetches one page of server changes and deletes the listed item ids from the local store.
- It then batch-upserts every changed item, mapped to an aggregate of the item, its labels and its highlights.
- It returns a small result record. When the remote call yields nothing, that record is a fixed error record.

Beside it sit:
- the search variant;
- the on-demand single-item content fetch;
- the "content already stored" guard.

It also models four smaller cores of the same repository:
- The web notebook's highlight ordering (a ranked comparator chain) and its note-save state machine with a 4000 ms guard.
- The Readwise export: the mapping from a page's highlights to Readwise records, and the bounded retry on HTTP 429 "Too Many Requests" (section 4 of RFC 6585).
- The deep string truncation applied to oversized log records.
- The decision tables of the newsletter push-message handlers.

Each source file is one module:

| file | module | source |
|---|---|---|
| `wrappers.dfy` | `Wrappers` | `Option`, standing for Kotlin `T?` and TypeScript `T \| undefined` |
| `utf16.dfy` | `Utf16` | string length as Kotlin and JavaScript count it, in UTF-16 code units |
| `library_sync.dfy` | `LibrarySync` | `LibrarySync.kt` |
| `notebook.dfy` | `Notebook` | `Notebook.tsx` |
| `readwise.dfy` | `Readwise` | `readwise.ts` |
| `logger.dfy` | `Logger` | `logger.ts` |
| `logger_lodash.dfy` | `LoggerLodash` | `logger.ts` run with lodash's symbol-counting `truncate` |
| `newsletters.dfy` | `Newsletters` | `newsletters.ts` |

All collaborators are parameters, either function-typed arguments or fields of an environment datatype:
- the remote GraphQL calls;
- `diff_match_patch` parsing and `localeCompare`;
- `getHighlightUrl` and `toISOString`;
- the sequence of POST outcomes;
- lodash `truncate` and the serializer's length;
- `JSON.parse`, the database services and `isUrl`.

The local database is an immutable `map<string, Aggregate>` keyed by item id. Each operation returns the store it leaves. Time is an integer number of milliseconds passed in by the caller.

A Dafny `char` is a Unicode scalar value. Kotlin's and JavaScript's `length` instead count UTF-16 code units, where a character outside the Basic Multilingual Plane counts twice. Every length comparison the sources make goes through `Utf16.Length`. The one exception is the hypothesis of `Logger.GcpLogRecordBounded`, which counts Unicode scalar values (Dafny's `|s|`), not lodash's symbols.

## Model

| member | source | states |
|---|---|---|
| Utf16.Length | android/Omnivore/app/src/main/java/app/omnivore/omnivore/dataService/LibrarySync.kt:112-113 | `s.length` as Kotlin and JavaScript count it: one code unit per character, two for a character above U+FFFF. It lies between the character count and twice that. |
| LibrarySync.Sync | android/Omnivore/app/src/main/java/app/omnivore/omnivore/dataService/LibrarySync.kt:33-108 | A missing remote page yields exactly `hasError=true, hasMoreItems=true, cursor=null, count=0, savedItemSlugs=[]` and leaves the store unchanged. A page yields `hasError=false`, copies `hasMoreItems` and `cursor` from the page, sets `count` to the number of items, and lists the items' slugs in page order. The query sent carries the caller's cursor, limit (default 20) and `since`. |
| LibrarySync.MapItem | android/Omnivore/app/src/main/java/app/omnivore/omnivore/dataService/LibrarySync.kt:41-95 | The mapped aggregate keeps the wire item's id and slug. Its content is null. Every label has null `createdAt` and `labelDescription`. Every highlight has `markedForDeletion=false`, status synced and null `createdAt`. Absent label or highlight lists become empty lists, and present ones keep their length and order. Every other field the server sent is copied unchanged, absent values included and none defaulted: all item fields, each label's id, name and colour, and each highlight's id, shortId, type, annotation, createdByMe, patch, prefix, quote, suffix and updatedAt. |
| LibrarySync.UpsertAll | android/Omnivore/app/src/main/java/app/omnivore/omnivore/dataService/LibrarySync.kt:97 | A batched insert-or-replace. Afterwards the store holds the old ids plus the written ids. Each written id maps to the last aggregate with that id in the batch, and every other id keeps its old aggregate. |
| LibrarySync.ApplyPageDeleteThenUpsert | android/Omnivore/app/src/main/java/app/omnivore/omnivore/dataService/LibrarySync.kt:37-39 | Deletions are applied before the upsert. An id that is both deleted and sent back is present with its new aggregate. An id that is only deleted is absent. An id the page does not mention is untouched. |
| LibrarySync.SyncStore | android/Omnivore/app/src/main/java/app/omnivore/omnivore/dataService/LibrarySync.kt:37-97 | A successful sync writes exactly "delete the listed ids, then upsert the mapped items". Skipping the delete call for an empty list makes no difference. |
| LibrarySync.ApplyPageForcesFields | android/Omnivore/app/src/main/java/app/omnivore/omnivore/dataService/LibrarySync.kt:61-89 | Every aggregate that a sync page leaves in the store for one of its items carries the forced fields. |
| LibrarySync.ApplyPageIdempotent | android/Omnivore/app/src/main/java/app/omnivore/omnivore/dataService/LibrarySync.kt:97 | Applying the same page twice gives the same store as applying it once. |
| LibrarySync.SyncIdempotent | android/Omnivore/app/src/main/java/app/omnivore/omnivore/dataService/LibrarySync.kt:33-97 | Repeating `sync` with the same arguments against the same remote leaves the store the first call produced. |
| LibrarySync.LibrarySearch | android/Omnivore/app/src/main/java/app/omnivore/omnivore/dataService/LibrarySync.kt:9-31 | The search query asks for 10 hits. The result has `hasError=false` and `hasMoreItems=false`, the page's cursor, and `count` equal to the number of hits. The hits are wrapped verbatim and in order, and are upserted with the same last-wins rule. |
| LibrarySync.IsContentStoredIff | android/Omnivore/app/src/main/java/app/omnivore/omnivore/dataService/LibrarySync.kt:110-114 | When slugs are unique, the guard holds iff an item with that slug exists, its content is non-null, and the content is longer than 10 UTF-16 code units. |
| LibrarySync.SyncedItemContentNotStored | android/Omnivore/app/src/main/java/app/omnivore/omnivore/dataService/LibrarySync.kt:61 | After a sync page, the guard is false for the slug of every item the page wrote, because sync never stores content. |
| LibrarySync.FetchSavedItemContent | android/Omnivore/app/src/main/java/app/omnivore/omnivore/dataService/LibrarySync.kt:116-128 | A response without an item writes nothing. Otherwise exactly one aggregate (item, labels, highlights) is upserted under the item's id, and every other id is unchanged. |
| LibrarySync.FetchThenContentStored | android/Omnivore/app/src/main/java/app/omnivore/omnivore/dataService/LibrarySync.kt:110-128 | Fetching an item whose content is longer than 10 UTF-16 code units makes the guard true for its slug, provided slugs stay unique. |
| Notebook.GetHighlightLocation | packages/web/components/templates/article/Notebook.tsx:40-44 | Throws when the patch does not parse or holds no patch. Otherwise yields the first patch's start, except that a start of 0 yields undefined. |
| Notebook.CompareNumbers | packages/web/components/templates/article/Notebook.tsx:137-145 | Negative, zero or positive exactly as the first number is below, equal to or above the second. |
| Notebook.CompareHighlights | packages/web/components/templates/article/Notebook.tsx:149-163 | When both position percents are truthy, the sign follows their order, and equal percents compare as 0. Otherwise, when both patch locations are defined and non-zero, the sign follows the locations. Otherwise the result is `localeCompare` of the `createdAt` strings, and a patch that throws falls through silently. |
| Notebook.MixedTiersCycle | packages/web/components/templates/article/Notebook.tsx:149-163 | Across tiers the comparator is not transitive: three concrete highlights compare in a cycle. |
| Notebook.OfType | packages/web/components/templates/article/Notebook.tsx:148 | An entry is in the result iff it is in the input and has the given type. |
| Notebook.OfTypeExact | packages/web/components/templates/article/Notebook.tsx:148 | The filter keeps every entry of the given type as many times as it occurs, drops every other entry, and keeps the input order (the result is a subsequence). With `SortBy`'s permutation, the sorted notebook holds each `HIGHLIGHT` entry exactly as often as the input does. |
| Notebook.SortBy | packages/web/components/templates/article/Notebook.tsx:149 | The sort returns a permutation of its input. |
| Notebook.SortBySorted | packages/web/components/templates/article/Notebook.tsx:149 | Whenever the comparator is a total preorder on the input, the sort's output is ordered by it. |
| Notebook.SortedHighlights | packages/web/components/templates/article/Notebook.tsx:136-164 | The output is a permutation of the `HIGHLIGHT`-typed entries. It contains exactly those entries, and none when highlights are not loaded. |
| Notebook.SortedByPositionPercent | packages/web/components/templates/article/Notebook.tsx:150-152 | If every kept highlight has a truthy percent, the output is ordered by percent. |
| Notebook.SortedByLocation | packages/web/components/templates/article/Notebook.tsx:153-161 | If no kept highlight has a truthy percent and every one has a usable patch location, the output is ordered by location. |
| Notebook.SortedByCreatedAt | packages/web/components/templates/article/Notebook.tsx:162 | If neither earlier tier applies to any kept highlight, and `localeCompare` is a total preorder on their dates, the output is ordered by `createdAt`. |
| Notebook.StartCreate | packages/web/components/templates/article/Notebook.tsx:94-95 | Starting a create sets `isCreating` and stamps `createStarted` with the current time. |
| Notebook.HandleSaveNoteText | packages/web/components/templates/article/Notebook.tsx:166-190 | With a known note, a save updates that note and never creates one. Without one, it creates iff no create is in flight, or the one in flight started more than 4000 ms ago. Otherwise it does nothing. |
| Notebook.CreateSettled | packages/web/components/templates/article/Notebook.tsx:96-116 | A created note is stored and clears `isCreating`. An exception clears `isCreating`. A falsy result leaves the state as it was, still creating. |
| Notebook.FindNote | packages/web/components/templates/article/Notebook.tsx:121 | Returns the first highlight of type `NOTE`, or nothing iff there is none. |
| Notebook.HighlightsLoaded | packages/web/components/templates/article/Notebook.tsx:119-128 | Loaded highlights that contain a NOTE make it the known note, clear `isCreating` and set the editor text to its annotation, or to '' when it has none. Otherwise nothing changes. |
| Notebook.DeleteDocumentNote | packages/web/components/templates/article/Notebook.tsx:192-205 | Requests a delete for exactly the loaded highlights of type `NOTE`, forgets the known note and clears the editor text. The create flags are untouched. |
| Notebook.DeleteThenSaveCreates | packages/web/components/templates/article/Notebook.tsx:192-205 | After a delete, the next save with no create in flight starts a create instead of updating the deleted note. |
| Notebook.InFlightSavesIgnored | packages/web/components/templates/article/Notebook.tsx:175-186 | While a create is unsettled, saves up to 4000 ms after its start issue nothing and change nothing. |
| Notebook.BurstCreatesOnce | packages/web/components/templates/article/Notebook.tsx:166-190 | From a fresh notebook, a burst of saves within 4000 ms of the first issues exactly one create, from the first save. |
| Readwise.OrUndefined | packages/api/src/services/integrations/readwise.ts:96 | An absent or empty string becomes undefined. Any other value is kept. |
| Readwise.PageToReadwiseHighlight | packages/api/src/services/integrations/readwise.ts:82-109 | A page without highlights maps to no records. There are never more records than highlights. Every record has a non-empty `text`, the page's title and URL, `source_type='omnivore'` and `location_type='order'`. Its category is `tweets` iff the site is Twitter, else `articles`. Empty author, image and note become undefined. |
| Readwise.DefinedCandidatesAreExported | packages/api/src/services/integrations/readwise.ts:86-108 | Mapping to record-or-undefined and then dropping the undefined entries gives the same list as keeping the exportable highlights and then mapping them. |
| Readwise.PageRecordsAreExportedInOrder | packages/api/src/services/integrations/readwise.ts:82-109 | A page's records are exactly its highlights of type Highlight with a non-empty quote, mapped, in input order. |
| Readwise.FlatMapPagesExported | packages/api/src/services/integrations/readwise.ts:66 | The flattened records are exactly the exportable highlights of all pages, in page order and then highlight order. |
| Readwise.Defined | packages/api/src/services/integrations/readwise.ts:108 | Dropping undefined entries never lengthens the list and keeps only values that were present. |
| Readwise.SyncWithReadwise | packages/api/src/services/integrations/readwise.ts:111-149 | Only an HTTP 429 error is retried, and only while the retry count is below 3, so a call from count 0 makes at most 4 attempts. Every attempt before the last was a 429. The last attempt was not retriable. The result is true iff the last attempt got a response with status 200. |
| Readwise.AtMostFourAttempts | packages/api/src/services/integrations/readwise.ts:133-139 | A call from the start makes 1 to 4 POSTs. It makes 4 only when the first three were rate limited. |
| Readwise.Export | packages/api/src/services/integrations/readwise.ts:60-80 | With no flattened highlights it makes no POST and succeeds. Otherwise it makes 1 to 4 POSTs and succeeds iff the last got status 200. `syncedAt` is updated iff the result is true. |
| Readwise.ExportSendsExportable | packages/api/src/services/integrations/readwise.ts:60-80 | Export sends exactly the exportable highlights of the pages. It makes no POST iff there are none. |
| Logger.TruncateDeep | packages/api/src/utils/logger.ts:100-119 | A string no longer than the limit (in UTF-16 code units) is unchanged. A longer one becomes `truncate(s, length) + ' [truncated]'`. Arrays keep their length and objects keep exactly their key set. Every array element and every object value is the transform of the original one. Numbers, booleans and null are untouched. |
| Logger.TruncateDeepIdentity | packages/api/src/utils/logger.ts:101-118 | A tree with no string over the limit comes back unchanged. |
| Logger.TruncateDeepBounded | packages/api/src/utils/logger.ts:101-103 | Suppose `truncate` returns at most `cap` code units, and `cap` is at least the limit. Then no string in the result exceeds `cap` plus the 12 units of the marker. |
| Logger.TruncateObjectDeep | packages/api/src/utils/logger.ts:97-122 | The result is `truncateDeep` applied to the record, so every long string anywhere in it is cut. It has the record's shape, and a record with no long string is returned as is. The input is never modified. |
| Logger.GcpLogRecord | packages/api/src/utils/logger.ts:124-132 | A record whose serialized size is at most 250000 is passed through unchanged. A larger one is truncated with limit 5000. The shape is kept either way. |
| Logger.GcpLogRecordMarksLong | packages/api/src/utils/logger.ts:126-130 | Whatever `truncate` returns, every string of an oversized record's shipped form is at most 5000 code units or ends with ' [truncated]'. |
| Logger.TruncateDeepMarksLong | packages/api/src/utils/logger.ts:100-119 | Whatever `truncate` returns, no string over the limit comes out of the transform without the marker. |
| Logger.GcpLogRecordBounded | packages/api/src/utils/logger.ts:126-130 | If `truncate` returns at most 5000 Unicode scalar values, that is at most 10000 code units, and then an oversized record is shipped with no string longer than 10000 code units plus the marker. |
| Logger.GcpLogRecordBoundedUnits | packages/api/src/utils/logger.ts:126-130 | If `truncate` returns at most 5000 code units, no shipped string exceeds 5000 code units plus the marker. |
| LoggerLodash.AstralTextExceedsUnitsBound | packages/api/src/utils/logger.ts:101-103 | With a `truncate` that returns any string of at most 5000 symbols whole, as lodash does when each surrogate pair is one symbol, a run of 2600 U+1F600 in an oversized record is shipped whole with the marker: 5212 code units, over the 5012 that `GcpLogRecordBoundedUnits` promises under its hypothesis. |
| Newsletters.Failed | packages/api/src/routers/svc/newsletters.ts:78-86 | A `SyntaxError` answers 400 and any other exception answers 500. Either way the body is the error. |
| Newsletters.Confirmation | packages/api/src/routers/svc/newsletters.ts:40-87 | A missing or empty message answers 400 'Bad Request', and an expired one answers 200 'Expired'. Neither makes a service call. Any other message makes at most one call, `updateConfirmationCode`. A message that fails to parse is answered by the error handler: 400 for a `SyntaxError`, otherwise 500, with the error as the body. A JSON primitive answers 500, because the `in` test throws a TypeError. The status is always 200, 400 or 500. |
| Newsletters.ConfirmationOutcomes | packages/api/src/routers/svc/newsletters.ts:57-86 | The handler answers 'confirmation code set' iff a live message parses to an object with both fields and the address is found. A payload missing either field answers 400 before any call. An unknown address answers 200 'Not Found' after the `updateConfirmationCode` call. If that call throws, the error handler answers. |
| Newsletters.Finish | packages/api/src/routers/svc/newsletters.ts:158-161 | After a save, the received email is marked as `article` as the last call. When that call returns, the answer is 200 'newsletter created'. When it throws, the error handler answers. |
| Newsletters.CreateSucceedsIff | packages/api/src/routers/svc/newsletters.ts:105-161 | '/create' answers 200 'newsletter created' iff all of these hold: a live message parses to a complete object, its address is known, and the save for that user succeeded (the URL save for a URL title, otherwise a subscription that is not Unsubscribed and then the newsletter save). Marking the received email must also return. |
| Newsletters.Create | packages/api/src/routers/svc/newsletters.ts:90-171 | A missing or empty message answers 400 'Bad Request', and an expired one answers 200 'Expired'. Neither makes a service call. A message that fails to parse is answered by the error handler with no call. A JSON primitive answers 500 with no call. The status is always 200, 400 or 500. |
| Newsletters.CreateValidatesMessage | packages/api/src/routers/svc/newsletters.ts:105-113 | A parsed message answers 400 'Bad Request' with no call iff any of `email`, `title`, `author`, `url` or `receivedEmailId` is missing. A complete message is first looked up by its email. |
| Newsletters.CreateUnknownAddress | packages/api/src/routers/svc/newsletters.ts:112-117 | An unknown newsletter address answers 200 'Not Found', and the only call made is the lookup. |
| Newsletters.CreateTitleRouting | packages/api/src/routers/svc/newsletters.ts:123-142 | For a known address, a URL title's second call is `saveUrlFromEmail(uid, title, receivedEmailId)`, and no subscription is looked up. Any other title's second call is the subscription lookup `(author, uid)`, and it never saves a URL. An existing Unsubscribed subscription answers 200 with no save. |
| Newsletters.CreateMarksOnlyAfterSave | packages/api/src/routers/svc/newsletters.ts:130-159 | `updateReceivedEmail(id, 'article')` is only ever the last call, right after a save that returned true. A save that returned false answers 500 without it. 'newsletter created' is only answered after it. |

## Left out

- Transport and persistence internals are not modelled: the Apollo networker, the Room DAOs and their SQL, axios, pubsub, Express response objects and the winston/GCP transports. Each is an abstract parameter, or the value it returns.
- The label and highlight tables are not modelled separately. The store holds whole aggregates, so an upsert replaces an item's labels and highlights wholesale. The database keeps child rows that a fresh payload omits, and this model does not show that.
- LibrarySync.UpsertAll: a label row carries no item id (LibrarySync.kt:65-71), so it is keyed by its own id and shared by every item that carries it. Upserting a page that carries label L rewrites L's name and colour, and nulls its `createdAt` and `labelDescription`, for every item linked to L, including items the page does not mention. The store keeps a copy of each label per aggregate. So "an id the page does not mention is untouched" (`UpsertAll`, `ApplyPageDeleteThenUpsert`) holds for item rows, but not for the contents of their labels.
- Room's lookup by slug is modelled as a choice among the items with that slug. It is exact when slugs are unique, which is what the lemmas about the guard assume.
- The slug lookup, `IsContentStored` and `SlugsUnique` are ghost definitions, because picking one item among several needs a choice.
- `SearchResult.errorResult` is declared as a constant. No path of the modelled code produces it.
- LibrarySync.Sync: the Kotlin casts `as String` on `createdAt` and `savedAt` would throw on a null value. The wire item types these fields as non-null strings, so that exception path is not modelled.
- Logging calls (`Log.d`, `logger.info`, `console.log`), toasts and the `setLastChanged`/`setLastSaved`/`setErrorSaving` UI state are left out: they do not affect the modelled results.
- Notebook: `updateNote`'s mutation outcome is left out. It only sets the saved/error indicators. The delete mutations' outcomes are left out too: a failure only shows a toast.
- Notebook: the clock is read three times. `createNote` stamps `createStarted` (line 95), and `handleSaveNoteText` reads it twice (lines 168 and 178). All three readings are modelled as the single `now` of the save being handled.
- Notebook: `Array.prototype.sort` is modelled as a stable insertion sort. With a comparator that is a total preorder on the input and consistent in sign (`cmp(a, b) < 0` exactly when `cmp(b, a) > 0`), every stable sort gives this result. `TotalPreorderOn` alone does not demand the sign consistency, so with other comparators an engine may order ties differently. Across tiers the comparator is not an order (see `MixedTiersCycle`), and then the engine's order is implementation-defined.
- Notebook.Truthy: NaN position percents are not modelled. Numbers are reals, and floating-point rounding is not modelled.
- Readwise: `accessToken` (an HTTP 204 check) and the `Retry-After` wait are left out. The wait only delays the retry.
- Readwise: `toISOString` is treated as total, but the real method throws on an invalid date.
- Readwise: which statuses axios turns into errors is not fixed. A POST outcome is either a response with its status, or an error with an optional status.
- Logger: lodash `isObject` also holds for functions, dates and class instances. The tree has only JSON values, so those cases are not modelled.
- Logger.GcpLogRecordBounded: lodash `truncate` measures symbols, not Unicode scalar values. It counts a zero-width-joiner sequence or a combining sequence as one symbol, so it can return a string of any length, and its hypothesis does not hold for lodash in general. `GcpLogRecordMarksLong` is the bound that holds unconditionally.
- Logger.GcpLogRecordBoundedUnits: its hypothesis fails for lodash on ordinary astral text, because lodash counts a surrogate pair as one symbol. A run of 2600 U+1F600 is 5200 code units, lodash returns it whole, and the record is shipped with 5212 units (`LoggerLodash.AstralTextExceedsUnitsBound`). The hypothesis also fails whenever one joined or combining sequence is longer than 5000 code units, even on Basic Multilingual Plane text.
- Logger: the object key order and the `cloneDeep` of non-JSON values are not modelled.
- Logger.TruncateDeep: records are finite trees, so cyclic records are not modelled. The transport serialises with the cycle-tolerant `fast-safe-stringify`, and `cloneDeep` keeps cycles. On an oversized cyclic record, such as a logged HTTP client error holding back-references, `truncateDeep` would recurse without end. The model does not show that non-termination.
- Newsletters: every parsed value is modelled as a string, so non-string titles passed to `isUrl` are not modelled.
- Newsletters: `createPubSubClient` is not modelled as a call, and neither are the logger calls.
- Article.tsx, TextToSpeechView.swift and the content-display-report test are not part of this model. They hold browser geometry, SwiftUI presentation and a database integration test.

=== FILE: library_sync.dfy ===
/** The Android library sync layer: one page of server changes is applied to a
    local store keyed by item id (deletions first, then one batched upsert of
    mapped aggregates), plus the search variant, the on-demand content fetch
    and the "content already stored" guard.

    The remote calls are function-typed parameters; the local database is the
    immutable `Store` map, and each operation returns the store it leaves. */
module LibrarySync {
  import opened Wrappers
  import Utf16

  /* ---------------------------------------------------------------- local rows */

  /** Sync status of a locally stored highlight; only `IsSynced` is written here. */
  datatype ServerSyncStatus = IsSynced | NotSynced

  datatype SavedItem = SavedItem(
    savedItemId: string,
    title: string,
    createdAt: string,
    savedAt: string,
    readAt: Option<string>,
    updatedAt: Option<string>,
    readingProgress: real,
    readingProgressAnchor: int,
    imageURLString: Option<string>,
    pageURLString: string,
    descriptionText: Option<string>,
    publisherURLString: Option<string>,
    siteName: Option<string>,
    author: Option<string>,
    publishDate: Option<string>,
    slug: string,
    isArchived: bool,
    contentReader: string,
    content: Option<string>,
    wordsCount: Option<int>)

  datatype SavedItemLabel = SavedItemLabel(
    savedItemLabelId: string,
    name: string,
    color: string,
    createdAt: Option<string>,
    labelDescription: Option<string>)

  datatype Highlight = Highlight(
    highlightId: string,
    shortId: string,
    highlightType: string,
    annotation: Option<string>,
    createdByMe: bool,
    markedForDeletion: bool,
    patch: Option<string>,
    prefix: Option<string>,
    quote: Option<string>,
    suffix: Option<string>,
    serverSyncStatus: ServerSyncStatus,
    createdAt: Option<string>,
    updatedAt: Option<string>)

  /** The unit of storage write: an item with its labels and highlights. */
  datatype Aggregate = Aggregate(
    savedItem: SavedItem,
    labels: seq<SavedItemLabel>,
    highlights: seq<Highlight>)

  /** The local database, keyed by `savedItemId`. */
  type Store = map<string, Aggregate>

  function IdOf(a: Aggregate): string {
    a.savedItem.savedItemId
  }

  /* ----------------------------------------------------------- wire records */

  datatype WireLabel = WireLabel(id: string, name: string, color: string)

  datatype WireHighlight = WireHighlight(
    id: string,
    shortId: string,
    highlightType: string,
    annotation: Option<string>,
    createdByMe: bool,
    patch: Option<string>,
    prefix: Option<string>,
    quote: Option<string>,
    suffix: Option<string>,
    createdAt: Option<string>,
    updatedAt: Option<string>)

  datatype WireItem = WireItem(
    id: string,
    title: string,
    createdAt: string,
    savedAt: string,
    readAt: Option<string>,
    updatedAt: Option<string>,
    readingProgressPercent: real,
    readingProgressAnchorIndex: int,
    image: Option<string>,
    url: string,
    description: Option<string>,
    originalArticleUrl: Option<string>,
    siteName: Option<string>,
    author: Option<string>,
    publishedAt: Option<string>,
    slug: string,
    isArchived: bool,
    contentReader: string,
    wordsCount: Option<int>,
    labels: Option<seq<WireLabel>>,
    highlights: Option<seq<WireHighlight>>)

  /** Arguments of the remote "saved item updates" call. */
  datatype SyncQuery = SyncQuery(cursor: Option<string>, limit: int, since: string)

  datatype SyncPage = SyncPage(
    items: seq<WireItem>,
    deletedItemIDs: seq<string>,
    cursor: Option<string>,
    hasMoreItems: bool)

  /** Arguments of the remote search call. */
  datatype SearchQuery = SearchQuery(cursor: Option<string>, limit: int, query: string)

  /** A search hit already carries local-shaped rows. */
  datatype SearchItem = SearchItem(
    item: SavedItem,
    labels: seq<SavedItemLabel>,
    highlights: seq<Highlight>)

  datatype SearchPage = SearchPage(items: seq<SearchItem>, cursor: Option<string>)

  /** Response of the single-item fetch; `item` is absent when the server has none. */
  datatype ItemResponse = ItemResponse(
    item: Option<SavedItem>,
    labels: seq<SavedItemLabel>,
    highlights: seq<Highlight>)

  /* --------------------------------------------------------------- results */

  datatype SavedItemSyncResult = SavedItemSyncResult(
    hasError: bool,
    hasMoreItems: bool,
    count: int,
    savedItemSlugs: seq<string>,
    cursor: Option<string>)

  datatype SearchResult = SearchResult(
    hasError: bool,
    hasMoreItems: bool,
    count: int,
    savedItems: seq<Aggregate>,
    cursor: Option<string>)

  /** `SavedItemSyncResult.errorResult`: "retry later, do not advance". */
  const SyncErrorResult := SavedItemSyncResult(
    hasError := true, hasMoreItems := true, count := 0, savedItemSlugs := [], cursor := None)

  /** `SearchResult.errorResult`; declared by the source, produced by no path of it. */
  const SearchErrorResult := SearchResult(
    hasError := true, hasMoreItems := true, count := 0, savedItems := [], cursor := None)

  datatype SyncOutcome = SyncOutcome(store: Store, result: SavedItemSyncResult)

  datatype SearchOutcome = SearchOutcome(store: Store, result: SearchResult)

  const DefaultSyncLimit := 20
  const SearchLimit := 10

  /* ----------------------------------------------------------- item mapper */

  /** The fields the sync mapper forces, whatever the server sent. */
  predicate LabelForced(l: SavedItemLabel) {
    l.createdAt == None && l.labelDescription == None
  }

  predicate HighlightForced(h: Highlight) {
    !h.markedForDeletion && h.serverSyncStatus == IsSynced && h.createdAt == None
  }

  predicate ForcedBySync(a: Aggregate) {
    && a.savedItem.content == None
    && (forall i :: 0 <= i < |a.labels| ==> LabelForced(a.labels[i]))
    && (forall i :: 0 <= i < |a.highlights| ==> HighlightForced(a.highlights[i]))
  }

  /** Every label field the server sent is stored unchanged. */
  predicate LabelPassesThrough(w: WireLabel, l: SavedItemLabel) {
    l.savedItemLabelId == w.id && l.name == w.name && l.color == w.color
  }

  /** Every highlight field the server sent is stored unchanged, absent ones
      included, except the creation time, which the mapper drops. */
  predicate HighlightPassesThrough(w: WireHighlight, h: Highlight) {
    && h.highlightId == w.id && h.shortId == w.shortId && h.highlightType == w.highlightType
    && h.annotation == w.annotation && h.createdByMe == w.createdByMe
    && h.patch == w.patch && h.prefix == w.prefix && h.quote == w.quote && h.suffix == w.suffix
    && h.updatedAt == w.updatedAt
  }

  /** Every item field the server sent is stored unchanged under its local
      name, absent ones included and none defaulted. */
  predicate ItemPassesThrough(w: WireItem, s: SavedItem) {
    && s.savedItemId == w.id && s.title == w.title
    && s.createdAt == w.createdAt && s.savedAt == w.savedAt
    && s.readAt == w.readAt && s.updatedAt == w.updatedAt
    && s.readingProgress == w.readingProgressPercent
    && s.readingProgressAnchor == w.readingProgressAnchorIndex
    && s.imageURLString == w.image && s.pageURLString == w.url
    && s.descriptionText == w.description && s.publisherURLString == w.originalArticleUrl
    && s.siteName == w.siteName && s.author == w.author && s.publishDate == w.publishedAt
    && s.slug == w.slug && s.isArchived == w.isArchived
    && s.contentReader == w.contentReader && s.wordsCount == w.wordsCount
  }

  function MapLabel(w: WireLabel): SavedItemLabel {
    SavedItemLabel(
      savedItemLabelId := w.id, name := w.name, color := w.color,
      createdAt := None, labelDescription := None)
  }

  function MapHighlight(w: WireHighlight): Highlight {
    Highlight(
      highlightId := w.id, shortId := w.shortId, highlightType := w.highlightType,
      annotation := w.annotation, createdByMe := w.createdByMe,
      markedForDeletion := false, patch := w.patch, prefix := w.prefix,
      quote := w.quote, suffix := w.suffix, serverSyncStatus := IsSynced,
      createdAt := None, updatedAt := w.updatedAt)
  }

  function MapSavedItem(w: WireItem): SavedItem {
    SavedItem(
      savedItemId := w.id, title := w.title, createdAt := w.createdAt,
      savedAt := w.savedAt, readAt := w.readAt, updatedAt := w.updatedAt,
      readingProgress := w.readingProgressPercent,
      readingProgressAnchor := w.readingProgressAnchorIndex,
      imageURLString := w.image, pageURLString := w.url,
      descriptionText := w.description, publisherURLString := w.originalArticleUrl,
      siteName := w.siteName, author := w.author, publishDate := w.publishedAt,
      slug := w.slug, isArchived := w.isArchived, contentReader := w.contentReader,
      content := None, wordsCount := w.wordsCount)
  }

  /** Maps one wire item of a sync page to the aggregate that is stored. */
  function MapItem(w: WireItem): (a: Aggregate)
    ensures IdOf(a) == w.id && a.savedItem.slug == w.slug
    ensures ForcedBySync(a)
    ensures |a.labels| == |w.labels.GetOr([])|
    ensures forall i :: 0 <= i < |a.labels| ==>
      a.labels[i].savedItemLabelId == w.labels.value[i].id
    ensures forall i :: 0 <= i < |a.labels| ==> LabelPassesThrough(w.labels.value[i], a.labels[i])
    ensures |a.highlights| == |w.highlights.GetOr([])|
    ensures forall i :: 0 <= i < |a.highlights| ==>
      a.highlights[i].highlightId == w.highlights.value[i].id
    ensures forall i :: 0 <= i < |a.highlights| ==>
      HighlightPassesThrough(w.highlights.value[i], a.highlights[i])
    ensures ItemPassesThrough(w, a.savedItem)
  {
    var labels := w.labels.GetOr([]);
    var highlights := w.highlights.GetOr([]);
    Aggregate(
      MapSavedItem(w),
      seq(|labels|, i requires 0 <= i < |labels| => MapLabel(labels[i])),
      seq(|highlights|, i requires 0 <= i < |highlights| => MapHighlight(highlights[i])))
  }

  function MapItems(items: seq<WireItem>): (r: seq<Aggregate>)
    ensures |r| == |items|
    ensures forall i :: 0 <= i < |items| ==> r[i] == MapItem(items[i])
  {
    seq(|items|, i requires 0 <= i < |items| => MapItem(items[i]))
  }

  /* ----------------------------------------------------- store operations */

  function IdsOf(aggs: seq<Aggregate>): set<string> {
    set i | 0 <= i < |aggs| :: IdOf(aggs[i])
  }

  /** The last aggregate of `aggs` with id `id`: the one a batched upsert keeps. */
  function Latest(aggs: seq<Aggregate>, id: string): (r: Option<Aggregate>)
    ensures r.None? <==> id !in IdsOf(aggs)
    ensures r.Some? ==> IdOf(r.value) == id && r.value in aggs
  {
    if |aggs| == 0 then None
    else
      var last := aggs[|aggs| - 1];
      IdsOfSnoc(aggs);
      if IdOf(last) == id then Some(last) else Latest(aggs[..|aggs| - 1], id)
  }

  lemma IdsOfSnoc(aggs: seq<Aggregate>)
    requires |aggs| > 0
    ensures IdsOf(aggs) == IdsOf(aggs[..|aggs| - 1]) + {IdOf(aggs[|aggs| - 1])}
  {
    var front := aggs[..|aggs| - 1];
    forall id | id in IdsOf(aggs)
      ensures id in IdsOf(front) + {IdOf(aggs[|aggs| - 1])}
    {
      var i :| 0 <= i < |aggs| && IdOf(aggs[i]) == id;
      if i < |aggs| - 1 {
        assert IdOf(front[i]) == id;
      }
    }
    forall id | id in IdsOf(front)
      ensures id in IdsOf(aggs)
    {
      var i :| 0 <= i < |front| && IdOf(front[i]) == id;
      assert IdOf(aggs[i]) == id;
    }
  }

  /** `insertAll` with replace-on-conflict: every aggregate is written in list
      order, so for an id listed twice the later aggregate is the one kept. */
  function UpsertAll(store: Store, aggs: seq<Aggregate>): (r: Store)
    ensures r.Keys == store.Keys + IdsOf(aggs)
    ensures forall id :: id in IdsOf(aggs) ==> Latest(aggs, id) == Some(r[id])
    ensures forall id :: id in store && id !in IdsOf(aggs) ==> r[id] == store[id]
  {
    if |aggs| == 0 then store
    else
      var last := aggs[|aggs| - 1];
      IdsOfSnoc(aggs);
      UpsertAll(store, aggs[..|aggs| - 1])[IdOf(last) := last]
  }

  /** `deleteByIds`: removes the listed items; ids not present are ignored. */
  function DeleteByIds(store: Store, ids: seq<string>): (r: Store)
    ensures r.Keys == store.Keys - set i | 0 <= i < |ids| :: ids[i]
    ensures forall id :: id in r ==> r[id] == store[id]
  {
    map id | id in store && id !in ids :: store[id]
  }

  /* ------------------------------------------------------------ operations */

  /** One page of incremental sync. A missing remote page yields the fixed error
      result and no write; otherwise deletions are applied, then every mapped
      item is upserted, and the page's continuation state is returned. */
  function Sync(
    store: Store, remote: SyncQuery -> Option<SyncPage>,
    since: string, cursor: Option<string>, limit: int := DefaultSyncLimit): (out: SyncOutcome)
    ensures remote(SyncQuery(cursor, limit, since)).None? ==>
      && out.store == store
      && out.result.hasError && out.result.hasMoreItems && out.result.cursor == None
      && out.result.count == 0 && out.result.savedItemSlugs == []
    ensures remote(SyncQuery(cursor, limit, since)).Some? ==>
      var page := remote(SyncQuery(cursor, limit, since)).value;
      && !out.result.hasError
      && out.result.hasMoreItems == page.hasMoreItems
      && out.result.cursor == page.cursor
      && out.result.count == |page.items|
      && |out.result.savedItemSlugs| == |page.items|
      && (forall i :: 0 <= i < |page.items| ==> out.result.savedItemSlugs[i] == page.items[i].slug)
  {
    match remote(SyncQuery(cursor, limit, since))
    case None => SyncOutcome(store, SyncErrorResult)
    case Some(page) =>
      var afterDelete :=
        if |page.deletedItemIDs| > 0 then DeleteByIds(store, page.deletedItemIDs) else store;
      var written := UpsertAll(afterDelete, MapItems(page.items));
      SyncOutcome(
        written,
        SavedItemSyncResult(
          hasError := false,
          hasMoreItems := page.hasMoreItems,
          count := |page.items|,
          savedItemSlugs := seq(|page.items|, i requires 0 <= i < |page.items| => page.items[i].slug),
          cursor := page.cursor))
  }

  /** The store a successful page leaves, stated without the orchestration. */
  function ApplyPage(store: Store, page: SyncPage): Store {
    UpsertAll(DeleteByIds(store, page.deletedItemIDs), MapItems(page.items))
  }

  function ItemIds(page: SyncPage): set<string> {
    set i | 0 <= i < |page.items| :: page.items[i].id
  }

  function DeletedIds(page: SyncPage): set<string> {
    set i | 0 <= i < |page.deletedItemIDs| :: page.deletedItemIDs[i]
  }

  lemma ItemIdsMapped(page: SyncPage)
    ensures IdsOf(MapItems(page.items)) == ItemIds(page)
  {
    var aggs := MapItems(page.items);
    forall id | id in ItemIds(page) ensures id in IdsOf(aggs) {
      var i :| 0 <= i < |page.items| && page.items[i].id == id;
      assert IdOf(aggs[i]) == id;
    }
  }

  /** A successful sync writes exactly `ApplyPage` (deleting nothing when the
      deletion list is empty is the same as skipping the delete call). */
  lemma SyncStore(
    store: Store, remote: SyncQuery -> Option<SyncPage>,
    since: string, cursor: Option<string>, limit: int)
    requires remote(SyncQuery(cursor, limit, since)).Some?
    ensures Sync(store, remote, since, cursor, limit).store
      == ApplyPage(store, remote(SyncQuery(cursor, limit, since)).value)
  {
    var page := remote(SyncQuery(cursor, limit, since)).value;
    if |page.deletedItemIDs| == 0 {
      assert DeleteByIds(store, page.deletedItemIDs) == store;
    }
  }

  /** Deletions happen before the upsert: an id both deleted and sent back is
      present with its new aggregate; an id only deleted is gone; every other
      stored item is untouched. */
  lemma {:induction false} ApplyPageDeleteThenUpsert(store: Store, page: SyncPage)
    ensures ApplyPage(store, page).Keys == (store.Keys - DeletedIds(page)) + ItemIds(page)
    ensures forall id :: id in ItemIds(page) ==>
      Latest(MapItems(page.items), id) == Some(ApplyPage(store, page)[id])
    ensures forall id :: id in DeletedIds(page) && id !in ItemIds(page) ==>
      id !in ApplyPage(store, page)
    ensures forall id :: id in store && id !in DeletedIds(page) && id !in ItemIds(page) ==>
      ApplyPage(store, page)[id] == store[id]
  {
    ItemIdsMapped(page);
  }

  /** Every aggregate a sync page writes carries the forced fields: no content,
      label dates and descriptions cleared, highlights synced and not deleted. */
  lemma {:induction false} ApplyPageForcesFields(store: Store, page: SyncPage)
    ensures forall id :: id in ItemIds(page) ==> ForcedBySync(ApplyPage(store, page)[id])
  {
    ApplyPageDeleteThenUpsert(store, page);
    forall id | id in ItemIds(page)
      ensures ForcedBySync(ApplyPage(store, page)[id])
    {
      var a := Latest(MapItems(page.items), id).value;
      var j :| 0 <= j < |page.items| && MapItems(page.items)[j] == a;
      assert a == MapItem(page.items[j]);
    }
  }

  /** Upsert overwrites by id, so re-applying a page changes nothing. */
  lemma {:induction false} ApplyPageIdempotent(store: Store, page: SyncPage)
    ensures ApplyPage(ApplyPage(store, page), page) == ApplyPage(store, page)
  {
    var once := ApplyPage(store, page);
    var twice := ApplyPage(once, page);
    ApplyPageDeleteThenUpsert(store, page);
    ApplyPageDeleteThenUpsert(once, page);
    assert twice.Keys == once.Keys;
    forall id | id in once ensures twice[id] == once[id] {
      if id !in ItemIds(page) {
        assert id in store && id !in DeletedIds(page);
      }
    }
  }

  /** The sync-level form of idempotence: the remote is a function of its
      query, so a repeated call fetches the same page and writes the same store. */
  lemma SyncIdempotent(
    store: Store, remote: SyncQuery -> Option<SyncPage>,
    since: string, cursor: Option<string>, limit: int)
    ensures
      var once := Sync(store, remote, since, cursor, limit).store;
      Sync(once, remote, since, cursor, limit).store == once
  {
    var once := Sync(store, remote, since, cursor, limit).store;
    if remote(SyncQuery(cursor, limit, since)).Some? {
      var page := remote(SyncQuery(cursor, limit, since)).value;
      SyncStore(store, remote, since, cursor, limit);
      SyncStore(once, remote, since, cursor, limit);
      ApplyPageIdempotent(store, page);
    }
  }

  /** Search: one page of at most `SearchLimit` hits, wrapped verbatim, cached
      in the store, never resumable. */
  function LibrarySearch(
    store: Store, remote: SearchQuery -> SearchPage,
    cursor: Option<string>, query: string): (out: SearchOutcome)
    ensures
      var page := remote(SearchQuery(cursor, SearchLimit, query));
      && !out.result.hasError && !out.result.hasMoreItems
      && out.result.cursor == page.cursor
      && out.result.count == |page.items|
      && |out.result.savedItems| == |page.items|
      && (forall i :: 0 <= i < |page.items| ==>
            out.result.savedItems[i]
              == Aggregate(page.items[i].item, page.items[i].labels, page.items[i].highlights))
      && out.store.Keys == store.Keys + IdsOf(out.result.savedItems)
      && (forall id :: id in IdsOf(out.result.savedItems) ==>
            Latest(out.result.savedItems, id) == Some(out.store[id]))
      && (forall id :: id in store && id !in IdsOf(out.result.savedItems) ==>
            out.store[id] == store[id])
  {
    var page := remote(SearchQuery(cursor, SearchLimit, query));
    var savedItems := seq(|page.items|, i requires 0 <= i < |page.items| =>
      Aggregate(page.items[i].item, page.items[i].labels, page.items[i].highlights));
    SearchOutcome(
      UpsertAll(store, savedItems),
      SearchResult(
        hasError := false, hasMoreItems := false, count := |page.items|,
        savedItems := savedItems, cursor := page.cursor))
  }

  /* --------------------------------------------------------- content guard */

  predicate HasSlug(store: Store, slug: string) {
    exists id :: id in store && store[id].savedItem.slug == slug
  }

  /** Slug is a unique secondary key of the table. */
  ghost predicate SlugsUnique(store: Store) {
    forall id1, id2 ::
      (id1 in store && id2 in store && store[id1].savedItem.slug == store[id2].savedItem.slug)
        ==> id1 == id2
  }

  /** The database lookup by slug: the aggregate holding that slug, if any. */
  ghost function FindBySlug(store: Store, slug: string): (r: Option<Aggregate>)
    ensures r.None? <==> !HasSlug(store, slug)
    ensures r.Some? ==>
      r.value.savedItem.slug == slug && exists id :: id in store && store[id] == r.value
  {
    if HasSlug(store, slug) then
      var id :| id in store && store[id].savedItem.slug == slug;
      Some(store[id])
    else None
  }

  /** `isSavedItemContentStoredInDB`: a missing item or missing content reads as
      the empty string, and only content longer than 10 UTF-16 code units counts. */
  ghost predicate IsContentStored(store: Store, slug: string) {
    var existing := FindBySlug(store, slug);
    var content := if existing.Some? then existing.value.savedItem.content.GetOr("") else "";
    Utf16.Length(content) > 10
  }

  /** With unique slugs the guard is exact: true iff the item with that slug
      exists and has non-null content of more than 10 UTF-16 code units. */
  lemma IsContentStoredIff(store: Store, slug: string)
    requires SlugsUnique(store)
    ensures IsContentStored(store, slug) <==>
      exists id :: id in store && store[id].savedItem.slug == slug
        && store[id].savedItem.content.Some? && Utf16.Length(store[id].savedItem.content.value) > 10
  {
    if HasSlug(store, slug) {
      var found := FindBySlug(store, slug).value;
      var id :| id in store && store[id] == found;
      forall id2 | id2 in store && store[id2].savedItem.slug == slug
        ensures id2 == id
      {
      }
    }
  }

  /** A sync page stores every listed item without content, so afterwards the
      guard reports the slug of each of those items as not stored. */
  lemma SyncedItemContentNotStored(store: Store, page: SyncPage, id: string)
    requires id in ItemIds(page)
    requires SlugsUnique(ApplyPage(store, page))
    ensures id in ApplyPage(store, page)
    ensures !IsContentStored(ApplyPage(store, page), ApplyPage(store, page)[id].savedItem.slug)
  {
    var after := ApplyPage(store, page);
    ApplyPageDeleteThenUpsert(store, page);
    ApplyPageForcesFields(store, page);
    IsContentStoredIff(after, after[id].savedItem.slug);
  }

  /* --------------------------------------------------------- content fetch */

  /** `fetchSavedItemContent`: writes nothing when the response has no item,
      otherwise upserts exactly that one aggregate. */
  function FetchSavedItemContent(
    store: Store, remote: string -> ItemResponse, slug: string): (r: Store)
    ensures remote(slug).item.None? ==> r == store
    ensures remote(slug).item.Some? ==>
      var item := remote(slug).item.value;
      && r.Keys == store.Keys + {item.savedItemId}
      && r[item.savedItemId] == Aggregate(item, remote(slug).labels, remote(slug).highlights)
      && (forall id :: id in store && id != item.savedItemId ==> r[id] == store[id])
  {
    var response := remote(slug);
    match response.item
    case None => store
    case Some(item) =>
      var agg := Aggregate(item, response.labels, response.highlights);
      assert IdOf([agg][0]) == item.savedItemId;
      assert IdsOf([agg]) == {item.savedItemId};
      UpsertAll(store, [agg])
  }

  /** Fetching an item whose content is longer than 10 UTF-16 code units makes the
      guard succeed for its slug (the database keeping slugs unique). */
  lemma FetchThenContentStored(store: Store, remote: string -> ItemResponse, slug: string)
    requires remote(slug).item.Some?
    requires remote(slug).item.value.slug == slug
    requires remote(slug).item.value.content.Some?
    requires Utf16.Length(remote(slug).item.value.content.value) > 10
    requires SlugsUnique(FetchSavedItemContent(store, remote, slug))
    ensures IsContentStored(FetchSavedItemContent(store, remote, slug), slug)
  {
    var after := FetchSavedItemContent(store, remote, slug);
    var id := remote(slug).item.value.savedItemId;
    assert id in after && after[id].savedItem.slug == slug;
    IsContentStoredIff(after, slug);
  }
}

=== FILE: logger.dfy ===
/** Deep truncation of log records before they are shipped to the GCP
    logging transport.

    A log record is a JSON-like tree. lodash `truncate` and the serializer's
    output length are parameters; string lengths are JavaScript's, in UTF-16
    code units. Values are immutable, so the source's deep
    clone (which keeps the caller's record unmodified) is implicit: the
    transform returns a new tree and cannot touch its argument. */
module Logger {
  import Utf16

  datatype Json =
    | JNull
    | JBool(b: bool)
    | JNumber(n: real)
    | JString(s: string)
    | JArray(items: seq<Json>)
    | JObject(fields: map<string, Json>)

  /** lodash `truncate(s, { length })`. */
  type Truncator = (string, nat) -> string

  const TruncatedSuffix := " [truncated]"

  /** Largest serialized record the transport ships without truncation. */
  const MaxRecordSize := 250000

  /** Longest string value kept in an oversized record. */
  const MaxStringLength := 5000

  /** `a` and `b` have the same tree shape: same constructors everywhere, arrays
      of equal length, objects with equal key sets, and equal non-string leaves. */
  predicate SameShape(a: Json, b: Json)
    decreases a
  {
    match a
    case JString(_) => b.JString?
    case JArray(xs) =>
      b.JArray? && |xs| == |b.items|
      && forall i :: 0 <= i < |xs| ==> SameShape(xs[i], b.items[i])
    case JObject(m) =>
      b.JObject? && m.Keys == b.fields.Keys
      && forall k :: k in m ==> SameShape(m[k], b.fields[k])
    case _ => a == b
  }

  lemma {:induction false} SameShapeReflexive(j: Json)
    ensures SameShape(j, j)
    decreases j
  {
    match j
    case JArray(xs) =>
      forall i | 0 <= i < |xs| ensures SameShape(xs[i], xs[i]) {
        SameShapeReflexive(xs[i]);
      }
    case JObject(m) =>
      forall k | k in m ensures SameShape(m[k], m[k]) {
        SameShapeReflexive(m[k]);
      }
    case _ =>
  }

  /** No string anywhere in `j` is longer than `bound` UTF-16 code units. */
  predicate StringsAtMost(j: Json, bound: nat)
    decreases j
  {
    match j
    case JString(s) => Utf16.Length(s) <= bound
    case JArray(xs) => forall i :: 0 <= i < |xs| ==> StringsAtMost(xs[i], bound)
    case JObject(m) => forall k :: k in m ==> StringsAtMost(m[k], bound)
    case _ => true
  }

  /** The inner `truncateDeep`: long strings are cut and marked, arrays and
      objects are rebuilt element by element, every other value is kept. */
  function TruncateDeep(j: Json, length: nat, truncate: Truncator): (r: Json)
    ensures SameShape(j, r)
    ensures j.JString? && Utf16.Length(j.s) <= length ==> r == j
    ensures j.JString? && Utf16.Length(j.s) > length ==> r == JString(truncate(j.s, length) + TruncatedSuffix)
    ensures j.JArray? ==>
      forall i :: 0 <= i < |j.items| ==> r.items[i] == TruncateDeep(j.items[i], length, truncate)
    ensures j.JObject? ==>
      forall k :: k in j.fields ==> r.fields[k] == TruncateDeep(j.fields[k], length, truncate)
    ensures !j.JString? && !j.JArray? && !j.JObject? ==> r == j
    decreases j
  {
    match j
    case JString(s) =>
      if Utf16.Length(s) > length then JString(truncate(s, length) + TruncatedSuffix) else j
    case JArray(xs) =>
      JArray(seq(|xs|, i requires 0 <= i < |xs| => TruncateDeep(xs[i], length, truncate)))
    case JObject(m) =>
      JObject(map k | k in m :: TruncateDeep(m[k], length, truncate))
    case _ => j
  }

  /** A tree with no over-long string comes back unchanged. */
  lemma {:induction false} TruncateDeepIdentity(j: Json, length: nat, truncate: Truncator)
    requires StringsAtMost(j, length)
    ensures TruncateDeep(j, length, truncate) == j
    decreases j
  {
    match j
    case JArray(xs) =>
      forall i | 0 <= i < |xs| ensures TruncateDeep(xs[i], length, truncate) == xs[i] {
        TruncateDeepIdentity(xs[i], length, truncate);
      }
      assert TruncateDeep(j, length, truncate).items == xs;
    case JObject(m) =>
      forall k | k in m ensures TruncateDeep(m[k], length, truncate) == m[k] {
        TruncateDeepIdentity(m[k], length, truncate);
      }
      assert TruncateDeep(j, length, truncate).fields == m;
    case _ =>
  }

  /** The marker is 12 code units long. */
  lemma SuffixUnits()
    ensures Utf16.Length(TruncatedSuffix) == |TruncatedSuffix| == 12
  {
    Utf16.BmpLength(TruncatedSuffix);
  }

  /** When `truncate` returns at most `cap` code units for `length` (and `cap`
      is at least `length`), every string of the result fits in `cap` plus the
      marker: an uncut string is at most `length`, a cut one is the truncated
      text followed by the marker. */
  lemma {:induction false} TruncateDeepBounded(j: Json, length: nat, truncate: Truncator, cap: nat)
    requires length <= cap
    requires forall s: string :: Utf16.Length(truncate(s, length)) <= cap
    ensures StringsAtMost(TruncateDeep(j, length, truncate), cap + |TruncatedSuffix|)
    decreases j
  {
    match j
    case JString(s) =>
      if Utf16.Length(s) > length {
        Utf16.LengthConcat(truncate(s, length), TruncatedSuffix);
        SuffixUnits();
      }
    case JArray(xs) =>
      forall i | 0 <= i < |xs|
        ensures StringsAtMost(TruncateDeep(xs[i], length, truncate), cap + |TruncatedSuffix|)
      {
        TruncateDeepBounded(xs[i], length, truncate, cap);
      }
    case JObject(m) =>
      forall k | k in m
        ensures StringsAtMost(TruncateDeep(m[k], length, truncate), cap + |TruncatedSuffix|)
      {
        TruncateDeepBounded(m[k], length, truncate, cap);
      }
    case _ =>
  }

  lemma ShortRecordUnchanged(j: Json, length: nat, truncate: Truncator)
    ensures StringsAtMost(j, length) ==> TruncateDeep(j, length, truncate) == j
  {
    if StringsAtMost(j, length) {
      TruncateDeepIdentity(j, length, truncate);
    }
  }

  /** `truncateObjectDeep`: the transform applied to a deep copy of the record. */
  function TruncateObjectDeep(record: Json, length: nat, truncate: Truncator): (r: Json)
    ensures SameShape(record, r)
    ensures StringsAtMost(record, length) ==> r == record
    ensures r == TruncateDeep(record, length, truncate)
  {
    var copy := record;
    ShortRecordUnchanged(copy, length, truncate);
    TruncateDeep(copy, length, truncate)
  }

  /** `GcpLoggingTransport.log`: a record whose serialization is longer than
      250000 characters has its strings cut to 5000; any other record is
      passed on unchanged. */
  function GcpLogRecord(info: Json, serializedLength: Json -> nat, truncate: Truncator): (r: Json)
    ensures serializedLength(info) <= MaxRecordSize ==> r == info
    ensures serializedLength(info) > MaxRecordSize ==>
      r == TruncateObjectDeep(info, MaxStringLength, truncate)
    ensures SameShape(info, r)
  {
    if serializedLength(info) > MaxRecordSize then
      TruncateObjectDeep(info, MaxStringLength, truncate)
    else
      SameShapeReflexive(info);
      info
  }

  /** A string that is short enough, or that ends with the marker. */
  predicate ShortOrMarked(s: string, length: nat) {
    Utf16.Length(s) <= length
    || (|s| >= |TruncatedSuffix| && s[|s| - |TruncatedSuffix|..] == TruncatedSuffix)
  }

  /** Every string anywhere in `j` is short enough or carries the marker. */
  predicate StringsShortOrMarked(j: Json, length: nat)
    decreases j
  {
    match j
    case JString(s) => ShortOrMarked(s, length)
    case JArray(xs) => forall i :: 0 <= i < |xs| ==> StringsShortOrMarked(xs[i], length)
    case JObject(m) => forall k :: k in m ==> StringsShortOrMarked(m[k], length)
    case _ => true
  }

  /** Whatever `truncate` returns, every string of the result is within the
      limit or ends with the marker: no over-long string escapes unmarked. */
  lemma {:induction false} TruncateDeepMarksLong(j: Json, length: nat, truncate: Truncator)
    ensures StringsShortOrMarked(TruncateDeep(j, length, truncate), length)
    decreases j
  {
    match j
    case JString(s) =>
      if Utf16.Length(s) > length {
        var t := truncate(s, length) + TruncatedSuffix;
        assert t[|t| - |TruncatedSuffix|..] == TruncatedSuffix;
      }
    case JArray(xs) =>
      forall i | 0 <= i < |xs| ensures StringsShortOrMarked(TruncateDeep(xs[i], length, truncate), length) {
        TruncateDeepMarksLong(xs[i], length, truncate);
      }
    case JObject(m) =>
      forall k | k in m ensures StringsShortOrMarked(TruncateDeep(m[k], length, truncate), length) {
        TruncateDeepMarksLong(m[k], length, truncate);
      }
    case _ =>
  }

  /** An oversized record is shipped with every string at most 5000 code units
      long or ending with the marker, whatever `truncate` returns. */
  lemma GcpLogRecordMarksLong(info: Json, serializedLength: Json -> nat, truncate: Truncator)
    requires serializedLength(info) > MaxRecordSize
    ensures StringsShortOrMarked(GcpLogRecord(info, serializedLength, truncate), MaxStringLength)
  {
    TruncateDeepMarksLong(info, MaxStringLength, truncate);
  }

  /** If `truncate` returns at most 5000 Unicode scalar values, that is at most 10000 UTF-16
      code units, so the record shipped for an oversized entry holds no string
      longer than 10000 code units plus the marker. */
  lemma GcpLogRecordBounded(info: Json, serializedLength: Json -> nat, truncate: Truncator)
    requires forall s: string :: |truncate(s, MaxStringLength)| <= MaxStringLength
    requires serializedLength(info) > MaxRecordSize
    ensures StringsAtMost(GcpLogRecord(info, serializedLength, truncate), 2 * MaxStringLength + |TruncatedSuffix|)
  {
    TruncateDeepBounded(info, MaxStringLength, truncate, 2 * MaxStringLength);
  }

  /** If `truncate` returns at most 5000 UTF-16 code units, the shipped record's
      strings fit in 5000 code units plus the marker. */
  lemma GcpLogRecordBoundedUnits(info: Json, serializedLength: Json -> nat, truncate: Truncator)
    requires forall s: string :: Utf16.Length(truncate(s, MaxStringLength)) <= MaxStringLength
    requires serializedLength(info) > MaxRecordSize
    ensures StringsAtMost(GcpLogRecord(info, serializedLength, truncate), MaxStringLength + |TruncatedSuffix|)
  {
    TruncateDeepBounded(info, MaxStringLength, truncate, MaxStringLength);
  }
}

=== FILE: logger_lodash.dfy ===
/** How the GCP transport's size bound fares with lodash's own `truncate`,
    which counts symbols rather than UTF-16 code units. */
module LoggerLodash {
  import Utf16
  import Logger

  /** lodash `truncate` counts a surrogate pair as one symbol and returns a
      string of at most `length` symbols unchanged. With such a `truncate`, a
      2600-character run of U+1F600 (5200 code units) in an oversized record
      is shipped whole with the marker, 5212 code units, past the bound
      `GcpLogRecordBoundedUnits` gives under its hypothesis. */
  lemma AstralTextExceedsUnitsBound()
    ensures
      var s := seq(2600, i => '\U{1F600}');
      var lodash := (t: string, n: nat) => if |t| <= n then t else t[..n];
      var shipped := Logger.GcpLogRecord(Logger.JString(s), _ => Logger.MaxRecordSize + 1, lodash);
      && shipped == Logger.JString(s + Logger.TruncatedSuffix)
      && !Logger.StringsAtMost(shipped, Logger.MaxStringLength + |Logger.TruncatedSuffix|)
  {
    var s := seq(2600, i => '\U{1F600}');
    var lodash := (t: string, n: nat) => if |t| <= n then t else t[..n];
    Utf16.AstralLength(s);
    Utf16.LengthConcat(s, Logger.TruncatedSuffix);
    Logger.SuffixUnits();
    assert Logger.GcpLogRecord(Logger.JString(s), _ => Logger.MaxRecordSize + 1, lodash)
      == Logger.TruncateDeep(Logger.JString(s), Logger.MaxStringLength, lodash);
  }
}

=== FILE: newsletters.dfy ===
/** The push-subscription handlers of the newsletter service: `/confirmation`
    stores a newsletter confirmation code, `/create` turns a received email
    into a saved article or newsletter.

    Each handler is a pure function from the pushed message, its expiry flag
    and the outcomes of its collaborators (JSON parsing, database lookups,
    saves) to the HTTP response and the list of service calls it issued. */
module Newsletters {
  import opened Wrappers

  /** An exception: `SyntaxError` or any other kind. */
  datatype Exn = SyntaxError | OtherError

  /** A collaborator call that returns a value or throws. */
  datatype Call<T> = Returns(value: T) | Throws(exn: Exn)

  /** What `JSON.parse` produced: an object or array (its keys, with the
      values read by the handlers) or a primitive (number, string, boolean,
      null), on which the `in` operator throws a TypeError. */
  datatype Parsed = ParsedObject(fields: map<string, string>) | ParsedPrimitive

  datatype SubscriptionStatus = Active | Unsubscribed

  /** The collaborators, as the outcome each gives for its arguments. */
  datatype Services = Services(
    parse: string -> Call<Parsed>,
    updateConfirmationCode: (string, string) -> Call<bool>,
    getNewsletterEmail: string -> Call<Option<string>>,
    isUrl: string -> bool,
    saveUrlFromEmail: (string, string, string) -> Call<bool>,
    getSubscriptionStatus: (string, string) -> Call<Option<SubscriptionStatus>>,
    saveNewsletterEmail: (map<string, string>, string) -> Call<bool>,
    updateReceivedEmail: (string, string) -> Call<()>)

  /** A service call a handler issued, with its arguments. */
  datatype Effect =
    | UpdateConfirmationCode(emailAddress: string, confirmationCode: string)
    | GetNewsletterEmail(email: string)
    | SaveUrlFromEmail(uid: string, url: string, receivedEmailId: string)
    | GetSubscription(name: string, uid: string)
    | SaveNewsletterEmail(data: map<string, string>, uid: string)
    | UpdateReceivedEmail(receivedEmailId: string, emailType: string)

  datatype Body = Text(text: string) | ErrorBody(exn: Exn)

  datatype Response = Response(status: int, body: Body)

  datatype Handled = Handled(response: Response, effects: seq<Effect>)

  const BadRequest := Response(400, Text("Bad Request"))
  const Expired := Response(200, Text("Expired"))
  const NotFound := Response(200, Text("Not Found"))

  /** JavaScript truthiness of the pushed message: absent or empty is falsy. */
  predicate MessagePresent(message: Option<string>) {
    message.Some? && message.value != ""
  }

  /** The `catch` block: a `SyntaxError` is the client's fault, anything else the server's. */
  function Failed(e: Exn, effects: seq<Effect>): (r: Handled)
    ensures r.response.status == (if e == SyntaxError then 400 else 500)
    ensures r.response.body == ErrorBody(e) && r.effects == effects
  {
    Handled(Response(if e == SyntaxError then 400 else 500, ErrorBody(e)), effects)
  }

  predicate StatusKnown(h: Handled) {
    h.response.status in {200, 400, 500}
  }

  /* ------------------------------------------------------- /confirmation */

  /** The `/confirmation` handler. */
  function Confirmation(svc: Services, message: Option<string>, expired: bool): (r: Handled)
    ensures StatusKnown(r)
    ensures !MessagePresent(message) ==> r == Handled(BadRequest, [])
    ensures MessagePresent(message) && expired ==> r == Handled(Expired, [])
    ensures |r.effects| <= 1
    ensures forall e :: e in r.effects ==> e.UpdateConfirmationCode?
    ensures MessagePresent(message) && !expired && svc.parse(message.value).Throws? ==>
      r == Failed(svc.parse(message.value).exn, [])
    ensures MessagePresent(message) && !expired && svc.parse(message.value) == Returns(ParsedPrimitive) ==>
      r == Failed(OtherError, [])
  {
    if !MessagePresent(message) then Handled(BadRequest, [])
    else if expired then Handled(Expired, [])
    else
      match svc.parse(message.value)
      case Throws(e) => Failed(e, [])
      case Returns(ParsedPrimitive) => Failed(OtherError, [])
      case Returns(ParsedObject(data)) =>
        if "emailAddress" !in data || "confirmationCode" !in data then Handled(BadRequest, [])
        else
          var call := UpdateConfirmationCode(data["emailAddress"], data["confirmationCode"]);
          match svc.updateConfirmationCode(data["emailAddress"], data["confirmationCode"])
          case Throws(e) => Failed(e, [call])
          case Returns(found) =>
            if found then Handled(Response(200, Text("confirmation code set")), [call])
            else Handled(NotFound, [call])
  }

  /** The code is reported set exactly when a live message parses to an object
      with both fields and the store found the address; a payload missing a
      field is rejected with 400 before any call; an address the store does not
      know answers 200 "Not Found" after the call, and a call that throws is
      answered by the error handler. */
  lemma ConfirmationOutcomes(svc: Services, message: Option<string>, expired: bool)
    ensures
      var r := Confirmation(svc, message, expired);
      r.response == Response(200, Text("confirmation code set")) <==>
        && MessagePresent(message) && !expired
        && svc.parse(message.value).Returns?
        && svc.parse(message.value).value.ParsedObject?
        && var data := svc.parse(message.value).value.fields;
           && "emailAddress" in data && "confirmationCode" in data
           && svc.updateConfirmationCode(data["emailAddress"], data["confirmationCode"]) == Returns(true)
    ensures
      var r := Confirmation(svc, message, expired);
      (MessagePresent(message) && !expired && svc.parse(message.value).Returns?
       && svc.parse(message.value).value.ParsedObject?
       && var data := svc.parse(message.value).value.fields;
          "emailAddress" !in data || "confirmationCode" !in data)
      ==> r == Handled(BadRequest, [])
    ensures
      var r := Confirmation(svc, message, expired);
      (LiveData(svc, message, expired).Some?
       && var data := LiveData(svc, message, expired).value;
          && "emailAddress" in data && "confirmationCode" in data
          && svc.updateConfirmationCode(data["emailAddress"], data["confirmationCode"]).Returns?)
      ==>
        var data := LiveData(svc, message, expired).value;
        var call := UpdateConfirmationCode(data["emailAddress"], data["confirmationCode"]);
        (svc.updateConfirmationCode(data["emailAddress"], data["confirmationCode"]) == Returns(false)
         <==> r == Handled(NotFound, [call]))
    ensures
      var r := Confirmation(svc, message, expired);
      (LiveData(svc, message, expired).Some?
       && var data := LiveData(svc, message, expired).value;
          && "emailAddress" in data && "confirmationCode" in data
          && svc.updateConfirmationCode(data["emailAddress"], data["confirmationCode"]).Throws?)
      ==>
        var data := LiveData(svc, message, expired).value;
        var call := UpdateConfirmationCode(data["emailAddress"], data["confirmationCode"]);
        r == Failed(svc.updateConfirmationCode(data["emailAddress"], data["confirmationCode"]).exn, [call])
  {
  }

  /* ------------------------------------------------------------- /create */

  /** `isNewsletterMessage`: all five fields are present. */
  predicate IsNewsletterMessage(data: map<string, string>) {
    "email" in data && "title" in data && "author" in data && "url" in data && "receivedEmailId" in data
  }

  /** After a successful save: mark the received email as an article. */
  function Finish(svc: Services, receivedEmailId: string, effects: seq<Effect>): (r: Handled)
    ensures r.effects == effects + [UpdateReceivedEmail(receivedEmailId, "article")]
    ensures svc.updateReceivedEmail(receivedEmailId, "article").Returns? ==>
      r.response == Response(200, Text("newsletter created"))
    ensures svc.updateReceivedEmail(receivedEmailId, "article").Throws? ==>
      r == Failed(svc.updateReceivedEmail(receivedEmailId, "article").exn, r.effects)
  {
    var call := UpdateReceivedEmail(receivedEmailId, "article");
    match svc.updateReceivedEmail(receivedEmailId, "article")
    case Throws(e) => Failed(e, effects + [call])
    case Returns(_) => Handled(Response(200, Text("newsletter created")), effects + [call])
  }

  /** The save issued for the message is the URL save when the title is a
      URL, otherwise the newsletter save. */
  function CreateForUser(svc: Services, data: map<string, string>, uid: string, effects: seq<Effect>): Handled
    requires IsNewsletterMessage(data)
  {
    if svc.isUrl(data["title"]) then
      var save := SaveUrlFromEmail(uid, data["title"], data["receivedEmailId"]);
      match svc.saveUrlFromEmail(uid, data["title"], data["receivedEmailId"])
      case Throws(e) => Failed(e, effects + [save])
      case Returns(saved) =>
        if !saved then Handled(Response(500, Text("Error saving url from email")), effects + [save])
        else Finish(svc, data["receivedEmailId"], effects + [save])
    else
      var lookup := GetSubscription(data["author"], uid);
      match svc.getSubscriptionStatus(data["author"], uid)
      case Throws(e) => Failed(e, effects + [lookup])
      case Returns(existing) =>
        if existing == Some(Unsubscribed) then
          Handled(Response(200, Text("newsletter already unsubscribed")), effects + [lookup])
        else
          var save := SaveNewsletterEmail(data, uid);
          match svc.saveNewsletterEmail(data, uid)
          case Throws(e) => Failed(e, effects + [lookup, save])
          case Returns(saved) =>
            if !saved then Handled(Response(500, Text("Error creating newsletter link")), effects + [lookup, save])
            else Finish(svc, data["receivedEmailId"], effects + [lookup, save])
  }

  /** The `/create` handler. */
  function Create(svc: Services, message: Option<string>, expired: bool): (r: Handled)
    ensures StatusKnown(r)
    ensures !MessagePresent(message) ==> r == Handled(BadRequest, [])
    ensures MessagePresent(message) && expired ==> r == Handled(Expired, [])
    ensures |r.effects| <= 4
    ensures MessagePresent(message) && !expired && svc.parse(message.value).Throws? ==>
      r == Failed(svc.parse(message.value).exn, [])
    ensures MessagePresent(message) && !expired && svc.parse(message.value) == Returns(ParsedPrimitive) ==>
      r == Failed(OtherError, [])
  {
    if !MessagePresent(message) then Handled(BadRequest, [])
    else if expired then Handled(Expired, [])
    else
      match svc.parse(message.value)
      case Throws(e) => Failed(e, [])
      case Returns(ParsedPrimitive) => Failed(OtherError, [])
      case Returns(ParsedObject(data)) =>
        if !IsNewsletterMessage(data) then Handled(BadRequest, [])
        else
          var lookup := GetNewsletterEmail(data["email"]);
          match svc.getNewsletterEmail(data["email"])
          case Throws(e) => Failed(e, [lookup])
          case Returns(None) => Handled(NotFound, [lookup])
          case Returns(Some(uid)) => CreateForUser(svc, data, uid, [lookup])
  }

  /** The parsed object of a live message, when there is one. */
  function LiveData(svc: Services, message: Option<string>, expired: bool): Option<map<string, string>> {
    if MessagePresent(message) && !expired && svc.parse(message.value).Returns?
       && svc.parse(message.value).value.ParsedObject?
    then Some(svc.parse(message.value).value.fields)
    else None
  }

  /** A message missing any of the five fields is rejected with 400 before any
      call; a complete one is looked up by its email first. */
  lemma CreateValidatesMessage(svc: Services, message: Option<string>, expired: bool)
    requires LiveData(svc, message, expired).Some?
    ensures
      var r := Create(svc, message, expired);
      var data := LiveData(svc, message, expired).value;
      && (!IsNewsletterMessage(data) <==> r == Handled(BadRequest, []))
      && (IsNewsletterMessage(data) ==> |r.effects| >= 1 && r.effects[0] == GetNewsletterEmail(data["email"]))
  {
  }

  /** An unknown newsletter address answers 200 "Not Found" and saves nothing. */
  lemma CreateUnknownAddress(svc: Services, message: Option<string>, expired: bool)
    requires LiveData(svc, message, expired).Some?
    requires IsNewsletterMessage(LiveData(svc, message, expired).value)
    requires svc.getNewsletterEmail(LiveData(svc, message, expired).value["email"]) == Returns(None)
    ensures Create(svc, message, expired)
      == Handled(NotFound, [GetNewsletterEmail(LiveData(svc, message, expired).value["email"])])
  {
  }

  predicate IsSave(e: Effect) {
    e.SaveUrlFromEmail? || e.SaveNewsletterEmail?
  }

  /** The save call `e` returned `saved`. */
  predicate SaveReturned(svc: Services, e: Effect, saved: bool) {
    || (e.SaveUrlFromEmail? && svc.saveUrlFromEmail(e.uid, e.url, e.receivedEmailId) == Returns(saved))
    || (e.SaveNewsletterEmail? && svc.saveNewsletterEmail(e.data, e.uid) == Returns(saved))
  }

  /** For a known address, a URL title is saved as a URL right after the
      lookup and never consults subscriptions; any other title consults the
      subscription right after the lookup, and an unsubscribed one answers 200
      without saving. */
  lemma CreateTitleRouting(svc: Services, message: Option<string>, expired: bool)
    requires LiveData(svc, message, expired).Some?
    requires IsNewsletterMessage(LiveData(svc, message, expired).value)
    ensures
      var r := Create(svc, message, expired);
      var data := LiveData(svc, message, expired).value;
      && (svc.isUrl(data["title"]) ==>
            forall e :: e in r.effects ==> !e.GetSubscription? && !e.SaveNewsletterEmail?)
      && (!svc.isUrl(data["title"]) ==> forall e :: e in r.effects ==> !e.SaveUrlFromEmail?)
      && (!svc.isUrl(data["title"]) && svc.getNewsletterEmail(data["email"]).Returns?
          && svc.getNewsletterEmail(data["email"]).value.Some?
          && svc.getSubscriptionStatus(data["author"], svc.getNewsletterEmail(data["email"]).value.value)
               == Returns(Some(Unsubscribed))
          ==> r.response == Response(200, Text("newsletter already unsubscribed"))
              && forall e :: e in r.effects ==> !IsSave(e))
      && (svc.getNewsletterEmail(data["email"]).Returns? && svc.getNewsletterEmail(data["email"]).value.Some? ==>
            var uid := svc.getNewsletterEmail(data["email"]).value.value;
            && |r.effects| >= 2
            && (svc.isUrl(data["title"]) ==>
                  r.effects[1] == SaveUrlFromEmail(uid, data["title"], data["receivedEmailId"]))
            && (!svc.isUrl(data["title"]) ==> r.effects[1] == GetSubscription(data["author"], uid)))
  {
  }

  /** The received email is marked only as the last call, right after a save
      that succeeded; a save that returned a falsy result answers 500 without marking it; and
      "newsletter created" is only ever answered after marking it. */
  lemma CreateMarksOnlyAfterSave(svc: Services, message: Option<string>, expired: bool)
    ensures
      var r := Create(svc, message, expired);
      forall i :: 0 <= i < |r.effects| && r.effects[i].UpdateReceivedEmail? ==>
        i == |r.effects| - 1 && i >= 1 && SaveReturned(svc, r.effects[i - 1], true)
        && r.effects[i].emailType == "article"
    ensures
      var r := Create(svc, message, expired);
      (|r.effects| > 0 && SaveReturned(svc, r.effects[|r.effects| - 1], false))
      ==> r.response.status == 500
    ensures
      var r := Create(svc, message, expired);
      r.response == Response(200, Text("newsletter created")) ==>
        |r.effects| >= 2 && r.effects[|r.effects| - 1].UpdateReceivedEmail?
        && SaveReturned(svc, r.effects[|r.effects| - 2], true)
  {
  }

  /** The save for a known user succeeded: the URL save when the title is a
      URL, otherwise a subscription that is not Unsubscribed and a newsletter
      save, each returning true. */
  predicate SaveSucceeds(svc: Services, data: map<string, string>, uid: string)
    requires IsNewsletterMessage(data)
  {
    if svc.isUrl(data["title"]) then
      svc.saveUrlFromEmail(uid, data["title"], data["receivedEmailId"]) == Returns(true)
    else
      && svc.getSubscriptionStatus(data["author"], uid).Returns?
      && svc.getSubscriptionStatus(data["author"], uid).value != Some(Unsubscribed)
      && svc.saveNewsletterEmail(data, uid) == Returns(true)
  }

  /** `/create` answers "newsletter created" exactly when a live, complete
      message names a known address, the save for that user succeeded and
      marking the received email returned. */
  lemma CreateSucceedsIff(svc: Services, message: Option<string>, expired: bool)
    ensures
      Create(svc, message, expired).response == Response(200, Text("newsletter created")) <==>
        && LiveData(svc, message, expired).Some?
        && var data := LiveData(svc, message, expired).value;
           && IsNewsletterMessage(data)
           && svc.getNewsletterEmail(data["email"]).Returns?
           && svc.getNewsletterEmail(data["email"]).value.Some?
           && SaveSucceeds(svc, data, svc.getNewsletterEmail(data["email"]).value.value)
           && svc.updateReceivedEmail(data["receivedEmailId"], "article").Returns?
  {
  }
}

=== FILE: notebook.dfy ===
/** The web notebook's highlight ordering and note-saving logic.

    Foreign code is a parameter: `diff_match_patch.patch_fromText` is `parse`
    (None when it throws, otherwise the `start1` of every parsed patch) and
    `String.prototype.localeCompare` is `localeCompare`. Time is an integer
    count of milliseconds supplied by the caller. */
module Notebook {
  import opened Wrappers

  datatype NbHighlight = NbHighlight(
    id: string,
    highlightType: string,
    patch: string,
    createdAt: string,
    highlightPositionPercent: Option<real>,
    annotation: Option<string>)

  type PatchParser = string -> Option<seq<int>>

  datatype SortEnv = SortEnv(parse: PatchParser, localeCompare: (string, string) -> int)

  /* ------------------------------------------------------ patch location */

  /** The result of `getHighlightLocation`: it throws when the patch text does
      not parse or holds no patch, and yields `undefined` (None) for start 0. */
  datatype Location = Threw | Located(pos: Option<int>)

  /** `patches[0].start1 || undefined`: the first patch's start, except that 0
      is falsy and becomes `undefined`; indexing an empty patch list throws. */
  function GetHighlightLocation(parse: PatchParser, patch: string): (r: Location)
    ensures r.Threw? <==> parse(patch).None? || parse(patch).value == []
    ensures r.Located? && r.pos.None? <==> r.Located? && parse(patch).value[0] == 0
    ensures r.Located? && r.pos.Some? ==> r.pos.value == parse(patch).value[0]
    ensures r.Located? && r.pos.Some? ==> r.pos.value != 0
  {
    match parse(patch)
    case None => Threw
    case Some(starts) =>
      if |starts| == 0 then Threw
      else if starts[0] == 0 then Located(None)
      else Located(Some(starts[0]))
  }

  /* ---------------------------------------------------------- comparator */

  /** JavaScript truthiness of an optional number (NaN is not modelled). */
  predicate Truthy(p: Option<real>) {
    p.Some? && p.value != 0.0
  }

  /** The inner `sorted` helper: -1, 1 or 0 by numeric order. */
  function CompareNumbers(a: real, b: real): (r: int)
    ensures r < 0 <==> a < b
    ensures r == 0 <==> a == b
    ensures r > 0 <==> a > b
  {
    if a < b then -1 else if a > b then 1 else 0
  }

  /** The defined, non-zero patch location, when getting it did not throw. */
  function UsableLocation(env: SortEnv, h: NbHighlight): Option<int> {
    match GetHighlightLocation(env.parse, h.patch)
    case Threw => None
    case Located(p) => p
  }

  /** The ranked comparator chain: position percent when both are truthy, else
      patch location when both are usable (a throw is swallowed), else the
      `createdAt` strings by `localeCompare`. */
  function CompareHighlights(env: SortEnv, a: NbHighlight, b: NbHighlight): (r: int)
    ensures (Truthy(a.highlightPositionPercent) && Truthy(b.highlightPositionPercent)) ==>
      var pa := a.highlightPositionPercent.value;
      var pb := b.highlightPositionPercent.value;
      (r < 0 <==> pa < pb) && (r == 0 <==> pa == pb) && (r > 0 <==> pa > pb)
    ensures (!(Truthy(a.highlightPositionPercent) && Truthy(b.highlightPositionPercent))
             && UsableLocation(env, a).Some? && UsableLocation(env, b).Some?) ==>
      var la := UsableLocation(env, a).value;
      var lb := UsableLocation(env, b).value;
      (r < 0 <==> la < lb) && (r == 0 <==> la == lb) && (r > 0 <==> la > lb)
    ensures (!(Truthy(a.highlightPositionPercent) && Truthy(b.highlightPositionPercent))
             && !(UsableLocation(env, a).Some? && UsableLocation(env, b).Some?)) ==>
      r == env.localeCompare(a.createdAt, b.createdAt)
  {
    if Truthy(a.highlightPositionPercent) && Truthy(b.highlightPositionPercent) then
      CompareNumbers(a.highlightPositionPercent.value, b.highlightPositionPercent.value)
    else
      match (GetHighlightLocation(env.parse, a.patch), GetHighlightLocation(env.parse, b.patch))
      case (Located(Some(aPos)), Located(Some(bPos))) => CompareNumbers(aPos as real, bPos as real)
      case _ => env.localeCompare(a.createdAt, b.createdAt)
  }

  /* -------------------------------------------------- stable sorting */

  /** `t` is ordered by `cmp`: no later element compares before an earlier one. */
  ghost predicate SortedBy<T>(t: seq<T>, cmp: (T, T) -> int) {
    forall i, j :: 0 <= i < j < |t| ==> cmp(t[i], t[j]) <= 0
  }

  /** `cmp` is a total preorder on the elements of `s`. */
  ghost predicate TotalPreorderOn<T>(s: seq<T>, cmp: (T, T) -> int) {
    && (forall a, b :: a in s && b in s ==> cmp(a, b) <= 0 || cmp(b, a) <= 0)
    && (forall a, b, c :: a in s && b in s && c in s && cmp(a, b) <= 0 && cmp(b, c) <= 0
          ==> cmp(a, c) <= 0)
  }

  /** Inserts `x` before the first element it does not compare after. */
  function InsertBy<T>(x: T, t: seq<T>, cmp: (T, T) -> int): (r: seq<T>)
    ensures multiset(r) == multiset(t) + multiset{x}
  {
    if |t| == 0 then [x]
    else if cmp(x, t[0]) <= 0 then [x] + t
    else
      assert t == [t[0]] + t[1..];
      [t[0]] + InsertBy(x, t[1..], cmp)
  }

  /** `Array.prototype.sort` with a comparator, as a stable insertion sort. */
  function SortBy<T>(s: seq<T>, cmp: (T, T) -> int): (r: seq<T>)
    ensures multiset(r) == multiset(s)
  {
    if |s| == 0 then []
    else
      assert s == [s[0]] + s[1..];
      InsertBy(s[0], SortBy(s[1..], cmp), cmp)
  }

  /** Prepending an element that compares before everything keeps order. */
  lemma ConsSorted<T>(x: T, t: seq<T>, cmp: (T, T) -> int)
    requires SortedBy(t, cmp)
    requires forall y :: y in t ==> cmp(x, y) <= 0
    ensures SortedBy([x] + t, cmp)
  {
    var r := [x] + t;
    forall i, j | 0 <= i < j < |r| ensures cmp(r[i], r[j]) <= 0 {
      assert r[j] == t[j - 1];
      if i > 0 {
        assert r[i] == t[i - 1];
      }
    }
  }

  lemma TailSorted<T>(t: seq<T>, cmp: (T, T) -> int)
    requires |t| > 0 && SortedBy(t, cmp)
    ensures SortedBy(t[1..], cmp)
    ensures forall y :: y in t[1..] ==> cmp(t[0], y) <= 0
  {
    forall i, j | 0 <= i < j < |t[1..]| ensures cmp(t[1..][i], t[1..][j]) <= 0 {
      assert t[1..][i] == t[i + 1] && t[1..][j] == t[j + 1];
    }
    forall y | y in t[1..] ensures cmp(t[0], y) <= 0 {
      var k :| 0 <= k < |t[1..]| && t[1..][k] == y;
      assert t[k + 1] == y;
    }
  }

  lemma {:induction false} InsertBySorted<T>(x: T, t: seq<T>, cmp: (T, T) -> int, dom: seq<T>)
    requires TotalPreorderOn(dom, cmp)
    requires x in dom
    requires forall y :: y in t ==> y in dom
    requires SortedBy(t, cmp)
    ensures SortedBy(InsertBy(x, t, cmp), cmp)
  {
    if |t| == 0 {
    } else {
      TailSorted(t, cmp);
      assert t[0] in t;
      if cmp(x, t[0]) <= 0 {
        forall y | y in t ensures cmp(x, y) <= 0 {
          if y != t[0] {
            assert y in t[1..] by {
              assert t == [t[0]] + t[1..];
            }
          }
        }
        ConsSorted(x, t, cmp);
      } else {
        var rest := InsertBy(x, t[1..], cmp);
        InsertBySorted(x, t[1..], cmp, dom);
        forall y | y in rest ensures cmp(t[0], y) <= 0 {
          assert y in multiset(rest);
        }
        ConsSorted(t[0], rest, cmp);
      }
    }
  }

  /** Whenever `cmp` is a total preorder on the input, the sort's output is ordered. */
  lemma {:induction false} SortBySorted<T>(s: seq<T>, cmp: (T, T) -> int)
    requires TotalPreorderOn(s, cmp)
    ensures SortedBy(SortBy(s, cmp), cmp)
  {
    if |s| > 0 {
      var tail := s[1..];
      forall y | y in tail ensures y in s {
      }
      assert TotalPreorderOn(tail, cmp);
      SortBySorted(tail, cmp);
      var sortedTail := SortBy(tail, cmp);
      forall y | y in sortedTail ensures y in s {
        assert y in multiset(sortedTail);
        assert y in multiset(tail);
      }
      InsertBySorted(s[0], sortedTail, cmp, s);
    }
  }

  /* ------------------------------------------------- sorted highlights */

  /** `xs` is `ys` with some elements left out, the rest in their order. */
  ghost predicate Subsequence<T>(xs: seq<T>, ys: seq<T>)
    decreases |ys|
  {
    if |xs| == 0 then true
    else if |ys| == 0 then false
    else (xs[0] == ys[0] && Subsequence(xs[1..], ys[1..])) || Subsequence(xs, ys[1..])
  }

  /** `hs.filter((h) => h.type === kind)`: the entries of that type, and only those. */
  function OfType(hs: seq<NbHighlight>, kind: string): (r: seq<NbHighlight>)
    ensures forall h :: h in r <==> h in hs && h.highlightType == kind
    ensures |r| <= |hs|
  {
    if |hs| == 0 then []
    else if hs[0].highlightType == kind then [hs[0]] + OfType(hs[1..], kind)
    else OfType(hs[1..], kind)
  }

  /** The filter keeps every entry of the type as often as it occurs, drops
      every other entry, and keeps the order. */
  lemma {:induction false} OfTypeExact(hs: seq<NbHighlight>, kind: string)
    ensures forall h :: multiset(OfType(hs, kind))[h] == if h.highlightType == kind then multiset(hs)[h] else 0
    ensures Subsequence(OfType(hs, kind), hs)
  {
    if |hs| > 0 {
      assert hs == [hs[0]] + hs[1..];
      OfTypeExact(hs[1..], kind);
    }
  }

  function Comparator(env: SortEnv): (NbHighlight, NbHighlight) -> int {
    (a: NbHighlight, b: NbHighlight) => CompareHighlights(env, a, b)
  }

  /** `sortedHighlights`: the `HIGHLIGHT`-typed entries (none when highlights are
      not loaded), reordered by the comparator chain. */
  function SortedHighlights(env: SortEnv, highlights: Option<seq<NbHighlight>>): (r: seq<NbHighlight>)
    ensures multiset(r) == multiset(OfType(highlights.GetOr([]), "HIGHLIGHT"))
    ensures forall h :: h in r <==> h in highlights.GetOr([]) && h.highlightType == "HIGHLIGHT"
  {
    var r := SortBy(OfType(highlights.GetOr([]), "HIGHLIGHT"), Comparator(env));
    assert forall h :: h in r <==> h in multiset(r);
    r
  }

  /** `localeCompare` is a total preorder on the dates of `hs`. */
  ghost predicate LocaleOrderOn(env: SortEnv, hs: seq<NbHighlight>) {
    && (forall a, b :: a in hs && b in hs ==>
          env.localeCompare(a.createdAt, b.createdAt) <= 0 || env.localeCompare(b.createdAt, a.createdAt) <= 0)
    && (forall a, b, c ::
          (a in hs && b in hs && c in hs && env.localeCompare(a.createdAt, b.createdAt) <= 0
           && env.localeCompare(b.createdAt, c.createdAt) <= 0) ==>
          env.localeCompare(a.createdAt, c.createdAt) <= 0)
  }

  /** Tier one: when every kept highlight has a truthy position percent, the
      output is ordered by position percent. */
  lemma SortedByPositionPercent(env: SortEnv, highlights: Option<seq<NbHighlight>>)
    requires forall h :: (h in highlights.GetOr([]) && h.highlightType == "HIGHLIGHT") ==>
                          Truthy(h.highlightPositionPercent)
    ensures var r := SortedHighlights(env, highlights);
      && (forall h :: h in r ==> Truthy(h.highlightPositionPercent))
      && forall i, j :: 0 <= i < j < |r| ==>
           r[i].highlightPositionPercent.value <= r[j].highlightPositionPercent.value
  {
    var kept := OfType(highlights.GetOr([]), "HIGHLIGHT");
    SortBySorted(kept, Comparator(env));
  }

  /** Tier two: when no kept highlight has a truthy percent but every one has a
      usable patch location, the output is ordered by location. */
  lemma SortedByLocation(env: SortEnv, highlights: Option<seq<NbHighlight>>)
    requires forall h :: (h in highlights.GetOr([]) && h.highlightType == "HIGHLIGHT") ==>
                          !Truthy(h.highlightPositionPercent) && UsableLocation(env, h).Some?
    ensures var r := SortedHighlights(env, highlights);
      && (forall h :: h in r ==> UsableLocation(env, h).Some?)
      && forall i, j :: 0 <= i < j < |r| ==>
           UsableLocation(env, r[i]).value <= UsableLocation(env, r[j]).value
  {
    var kept := OfType(highlights.GetOr([]), "HIGHLIGHT");
    SortBySorted(kept, Comparator(env));
  }

  /** On third-tier highlights the chain is `localeCompare` of the dates, so it
      is a total preorder there whenever `localeCompare` is one. */
  lemma CreatedAtPreorder(env: SortEnv, hs: seq<NbHighlight>, kept: seq<NbHighlight>)
    requires forall h :: h in kept ==>
               h in hs && !Truthy(h.highlightPositionPercent) && UsableLocation(env, h).None?
    requires LocaleOrderOn(env, hs)
    ensures forall x, y :: x in kept && y in kept ==>
              Comparator(env)(x, y) == env.localeCompare(x.createdAt, y.createdAt)
    ensures TotalPreorderOn(kept, Comparator(env))
  {
    var cmp := Comparator(env);
    forall x, y | x in kept && y in kept
      ensures cmp(x, y) == env.localeCompare(x.createdAt, y.createdAt)
    {
    }
  }

  /** Tier three: when neither earlier tier applies to any kept highlight and
      `localeCompare` is a total preorder on their dates, the output is ordered
      by `createdAt`. */
  lemma SortedByCreatedAt(env: SortEnv, highlights: Option<seq<NbHighlight>>)
    requires forall h :: (h in highlights.GetOr([]) && h.highlightType == "HIGHLIGHT") ==>
                          !Truthy(h.highlightPositionPercent) && UsableLocation(env, h).None?
    requires LocaleOrderOn(env, highlights.GetOr([]))
    ensures var r := SortedHighlights(env, highlights);
      forall i, j :: 0 <= i < j < |r| ==> env.localeCompare(r[i].createdAt, r[j].createdAt) <= 0
  {
    var hs := highlights.GetOr([]);
    var kept := OfType(hs, "HIGHLIGHT");
    var r := SortedHighlights(env, highlights);
    CreatedAtPreorder(env, hs, kept);
    SortBySorted(kept, Comparator(env));
    CreatedAtPreorder(env, hs, r);
  }

  /** Across tiers the chain is not an order: with `a` (percent 10, patch
      start 1), `b` (no percent, start 2) and `c` (percent 5, start 3) it puts
      `a` before `b`, `b` before `c` and `c` before `a`. This is why the
      sortedness lemmas above each require one tier throughout. */
  lemma MixedTiersCycle(localeCompare: (string, string) -> int)
    ensures
      var env := SortEnv((p: string) => if p == "@@ -1" then Some([1])
                                        else if p == "@@ -2" then Some([2])
                                        else Some([3]), localeCompare);
      var a := NbHighlight("a", "HIGHLIGHT", "@@ -1", "", Some(10.0), None);
      var b := NbHighlight("b", "HIGHLIGHT", "@@ -2", "", None, None);
      var c := NbHighlight("c", "HIGHLIGHT", "@@ -3", "", Some(5.0), None);
      CompareHighlights(env, a, b) < 0 && CompareHighlights(env, b, c) < 0 && CompareHighlights(env, c, a) < 0
  {
  }

  /* ----------------------------------------------------------- note state */

  /** The mutable `noteState` ref: the document note once known, whether a
      create request is in flight, and when the last one started. */
  datatype NoteState = NoteState(
    isCreating: bool,
    note: Option<NbHighlight>,
    createStarted: Option<int>)

  const InitialNoteState := NoteState(isCreating := false, note := None, createStarted := None)

  /** A create older than this many milliseconds is presumed lost. */
  const CreateTimeoutMs := 4000

  /** The request a save issues. */
  datatype SaveEffect = UpdateNote(note: NbHighlight, text: string) | CreateNote(text: string) | NoEffect

  datatype SaveStep = SaveStep(state: NoteState, effect: SaveEffect)

  /** The synchronous part of `createNote`: mark a create in flight from `now`. */
  function StartCreate(s: NoteState, now: int): (r: NoteState)
    ensures r.isCreating && r.createStarted == Some(now) && r.note == s.note
  {
    s.(isCreating := true, createStarted := Some(now))
  }

  /** `handleSaveNoteText`: update a known note; otherwise create one unless a
      create is in flight that started at most 4000 ms ago (or has no start). */
  function HandleSaveNoteText(s: NoteState, text: string, now: int): (r: SaveStep)
    ensures s.note.Some? ==> r == SaveStep(s, UpdateNote(s.note.value, text))
    ensures s.note.None? ==> !r.effect.UpdateNote?
    ensures s.note.None? ==>
      (r.effect.CreateNote? <==>
        !s.isCreating || (s.createStarted.Some? && now - s.createStarted.value > CreateTimeoutMs))
    ensures r.effect.CreateNote? ==> r.effect.text == text && r.state == StartCreate(s, now)
    ensures r.effect.NoEffect? ==> r.state == s
  {
    if s.note.Some? then SaveStep(s, UpdateNote(s.note.value, text))
    else if s.isCreating then
      if s.createStarted.Some? && now - s.createStarted.value > CreateTimeoutMs then
        SaveStep(StartCreate(s, now), CreateNote(text))
      else SaveStep(s, NoEffect)
    else SaveStep(StartCreate(s, now), CreateNote(text))
  }

  /** How the create mutation settled: a note, a falsy result, or an exception. */
  datatype CreateOutcome = Created(note: NbHighlight) | NotCreated | CreateThrew

  /** The asynchronous tail of `createNote`. */
  function CreateSettled(s: NoteState, outcome: CreateOutcome): (r: NoteState)
    ensures outcome.Created? ==> r.note == Some(outcome.note) && !r.isCreating
    ensures outcome.NotCreated? ==> r == s
    ensures outcome.CreateThrew? ==> !r.isCreating && r.note == s.note
    ensures r.createStarted == s.createStarted
  {
    match outcome
    case Created(n) => s.(note := Some(n), isCreating := false)
    case NotCreated => s
    case CreateThrew => s.(isCreating := false)
  }

  /** `v` occurs in `hs` with no NOTE before it. */
  ghost predicate FirstNoteAt(hs: seq<NbHighlight>, v: NbHighlight) {
    exists i :: 0 <= i < |hs| && hs[i] == v && forall j :: 0 <= j < i ==> hs[j].highlightType != "NOTE"
  }

  /** `Array.prototype.find` for the first highlight of type `NOTE`. */
  function FindNote(hs: seq<NbHighlight>): (r: Option<NbHighlight>)
    ensures r.None? <==> forall h :: h in hs ==> h.highlightType != "NOTE"
    ensures r.Some? ==> r.value.highlightType == "NOTE"
    ensures r.Some? ==> FirstNoteAt(hs, r.value)
  {
    if |hs| == 0 then None
    else if hs[0].highlightType == "NOTE" then Some(hs[0])
    else
      var r := FindNote(hs[1..]);
      assert forall h :: h in hs[1..] ==> h in hs;
      if r.Some? then FirstNoteShift(hs, r.value); r else r
  }

  lemma FirstNoteShift(hs: seq<NbHighlight>, v: NbHighlight)
    requires |hs| > 0 && hs[0].highlightType != "NOTE"
    requires FirstNoteAt(hs[1..], v)
    ensures FirstNoteAt(hs, v)
  {
    var i :| 0 <= i < |hs[1..]| && hs[1..][i] == v &&
      forall j :: 0 <= j < i ==> hs[1..][j].highlightType != "NOTE";
    assert hs[i + 1] == v;
    forall j | 0 <= j < i + 1 ensures hs[j].highlightType != "NOTE" {
      if j > 0 {
        assert hs[j] == hs[1..][j - 1];
      }
    }
  }

  datatype LoadStep = LoadStep(state: NoteState, noteText: Option<string>)

  /** The `highlights` memo: a loaded NOTE becomes the known note, ends any
      create in flight and sets the editor text to its annotation (or ''). */
  function HighlightsLoaded(s: NoteState, highlights: Option<seq<NbHighlight>>): (r: LoadStep)
    ensures FindNote(highlights.GetOr([])).None? ==> r == LoadStep(s, None)
    ensures FindNote(highlights.GetOr([])).Some? ==>
      var n := FindNote(highlights.GetOr([])).value;
      && r.state.note == Some(n) && !r.state.isCreating
      && r.state.createStarted == s.createStarted
      && r.noteText == Some(n.annotation.GetOr(""))
  {
    match FindNote(highlights.GetOr([]))
    case None => LoadStep(s, None)
    case Some(n) => LoadStep(s.(note := Some(n), isCreating := false), Some(n.annotation.GetOr("")))
  }

  /** What `deleteDocumentNote` does: a delete request for every NOTE among the
      loaded highlights, the known note forgotten and the editor text cleared. */
  datatype DeleteStep = DeleteStep(state: NoteState, deleted: seq<NbHighlight>, noteText: string)

  function DeleteDocumentNote(s: NoteState, highlights: Option<seq<NbHighlight>>): (r: DeleteStep)
    ensures r.state.note.None?
    ensures r.state.isCreating == s.isCreating && r.state.createStarted == s.createStarted
    ensures forall h :: h in r.deleted <==> h in highlights.GetOr([]) && h.highlightType == "NOTE"
    ensures r.noteText == ""
  {
    DeleteStep(s.(note := None), OfType(highlights.GetOr([]), "NOTE"), "")
  }

  /** Once the note is deleted, the next save with no create in flight creates
      a fresh note instead of updating the deleted one. */
  lemma DeleteThenSaveCreates(s: NoteState, highlights: Option<seq<NbHighlight>>, text: string, now: int)
    requires !s.isCreating
    ensures
      var after := DeleteDocumentNote(s, highlights).state;
      HandleSaveNoteText(after, text, now) == SaveStep(StartCreate(after, now), CreateNote(text))
  {
  }

  /* ------------------------------------------------------- save traces */

  datatype SaveEvent = SaveEvent(text: string, at: int)

  /** A run of saves with no create settling in between. */
  function RunSaves(s: NoteState, events: seq<SaveEvent>): (r: (NoteState, seq<SaveEffect>))
    ensures |r.1| == |events|
    decreases |events|
  {
    if |events| == 0 then (s, [])
    else
      var step := HandleSaveNoteText(s, events[0].text, events[0].at);
      var rest := RunSaves(step.state, events[1..]);
      (rest.0, [step.effect] + rest.1)
  }

  /** While a create started at `t0` is in flight and unsettled, saves up to
      4000 ms later issue nothing and leave the state alone. */
  lemma {:induction false} InFlightSavesIgnored(s: NoteState, t0: int, events: seq<SaveEvent>)
    requires s.note.None? && s.isCreating && s.createStarted == Some(t0)
    requires forall i :: 0 <= i < |events| ==> events[i].at <= t0 + CreateTimeoutMs
    ensures RunSaves(s, events).0 == s
    ensures forall i :: 0 <= i < |events| ==> RunSaves(s, events).1[i] == NoEffect
  {
    if |events| > 0 {
      assert HandleSaveNoteText(s, events[0].text, events[0].at).state == s;
      InFlightSavesIgnored(s, t0, events[1..]);
    }
  }

  /** From a fresh notebook, a burst of saves within 4000 ms of the first issues
      exactly one create: the first save's. */
  lemma {:induction false} BurstCreatesOnce(events: seq<SaveEvent>)
    requires |events| > 0
    requires forall i :: 0 <= i < |events| ==> events[i].at <= events[0].at + CreateTimeoutMs
    ensures RunSaves(InitialNoteState, events).1[0] == CreateNote(events[0].text)
    ensures forall i :: 1 <= i < |events| ==> RunSaves(InitialNoteState, events).1[i] == NoEffect
  {
    var first := HandleSaveNoteText(InitialNoteState, events[0].text, events[0].at);
    assert first.effect == CreateNote(events[0].text);
    var rest := RunSaves(first.state, events[1..]);
    assert RunSaves(InitialNoteState, events) == (rest.0, [first.effect] + rest.1);
    InFlightSavesIgnored(first.state, events[0].at, events[1..]);
  }
}

=== FILE: readwise.dfy ===
/** Export of a user's highlights to Readwise: the per-page mapping to
    Readwise highlight records, the export decision and the bounded retry on
    HTTP 429 "Too Many Requests" (section 4 of RFC 6585).

    `getHighlightUrl` and `Date.prototype.toISOString` are parameters; the
    successive outcomes of the POST request are a function of the attempt
    number. */
module Readwise {
  import opened Wrappers

  datatype HighlightType = HighlightKind | NoteKind | RedactionKind

  datatype PageHighlight = PageHighlight(
    id: string,
    highlightType: HighlightType,
    quote: Option<string>,
    annotation: Option<string>,
    createdAt: string)

  datatype Page = Page(
    slug: string,
    title: string,
    author: Option<string>,
    image: Option<string>,
    url: string,
    siteName: Option<string>,
    highlights: Option<seq<PageHighlight>>)

  /** One record of the Readwise highlights API. */
  datatype ReadwiseHighlight = ReadwiseHighlight(
    text: string,
    title: string,
    author: Option<string>,
    highlightUrl: string,
    highlightedAt: string,
    category: string,
    imageUrl: Option<string>,
    locationType: string,
    note: Option<string>,
    sourceType: string,
    sourceUrl: string)

  datatype ExportEnv = ExportEnv(
    highlightUrl: (string, string) -> string,
    toIsoString: string -> string)

  /** `s || undefined`: an empty string is falsy and becomes undefined. */
  function OrUndefined(s: Option<string>): (r: Option<string>)
    ensures r.Some? <==> s.Some? && s.value != ""
    ensures r.Some? ==> r == s
  {
    if s.Some? && s.value != "" then s else None
  }

  function Category(page: Page): string {
    if page.siteName == Some("Twitter") then "tweets" else "articles"
  }

  /** A highlight is exported iff it is of type Highlight and its quote is truthy. */
  predicate Exportable(h: PageHighlight) {
    h.highlightType == HighlightKind && h.quote.Some? && h.quote.value != ""
  }

  function ToRecord(env: ExportEnv, page: Page, h: PageHighlight): ReadwiseHighlight
    requires Exportable(h)
  {
    ReadwiseHighlight(
      text := h.quote.value,
      title := page.title,
      author := OrUndefined(page.author),
      highlightUrl := env.highlightUrl(page.slug, h.id),
      highlightedAt := env.toIsoString(h.createdAt),
      category := Category(page),
      imageUrl := OrUndefined(page.image),
      locationType := "order",
      note := OrUndefined(h.annotation),
      sourceType := "omnivore",
      sourceUrl := page.url)
  }

  /** The `.map` step: a record, or `undefined` for a skipped highlight. */
  function RecordOrSkip(env: ExportEnv, page: Page, h: PageHighlight): Option<ReadwiseHighlight> {
    if h.highlightType != HighlightKind || h.quote.None? || h.quote.value == "" then None
    else Some(ToRecord(env, page, h))
  }

  /** The `.filter(h => h !== undefined)` step. */
  function Defined<R>(xs: seq<Option<R>>): (r: seq<R>)
    ensures |r| <= |xs|
    ensures forall y :: y in r ==> Some(y) in xs
  {
    if |xs| == 0 then []
    else if xs[0].Some? then [xs[0].value] + Defined(xs[1..])
    else Defined(xs[1..])
  }

  /** Every field a produced record carries, stated per page. */
  predicate WellFormedRecord(page: Page, x: ReadwiseHighlight) {
    && x.text != ""
    && x.title == page.title
    && x.sourceUrl == page.url
    && x.sourceType == "omnivore"
    && x.locationType == "order"
    && (x.category == "tweets" <==> page.siteName == Some("Twitter"))
    && (x.category != "tweets" ==> x.category == "articles")
    && x.author == OrUndefined(page.author)
    && x.imageUrl == OrUndefined(page.image)
    && (x.note.Some? ==> x.note.value != "")
  }

  /** `pageToReadwiseHighlight`. */
  function PageToReadwiseHighlight(env: ExportEnv, page: Page): (r: seq<ReadwiseHighlight>)
    ensures page.highlights.None? ==> r == []
    ensures |r| <= |page.highlights.GetOr([])|
    ensures forall x :: x in r ==> WellFormedRecord(page, x)
  {
    match page.highlights
    case None => []
    case Some(hs) =>
      var candidates := seq(|hs|, i requires 0 <= i < |hs| => RecordOrSkip(env, page, hs[i]));
      Defined(candidates)
  }

  /** Reference definition: keep the exportable highlights, in order, then map. */
  function Exported(env: ExportEnv, page: Page, hs: seq<PageHighlight>): seq<ReadwiseHighlight> {
    if |hs| == 0 then []
    else if Exportable(hs[0]) then [ToRecord(env, page, hs[0])] + Exported(env, page, hs[1..])
    else Exported(env, page, hs[1..])
  }

  /** Filter-then-map and the source's map-then-drop-undefined agree. */
  lemma {:induction false} DefinedCandidatesAreExported(env: ExportEnv, page: Page, hs: seq<PageHighlight>)
    ensures Defined(seq(|hs|, i requires 0 <= i < |hs| => RecordOrSkip(env, page, hs[i])))
      == Exported(env, page, hs)
  {
    var candidates := seq(|hs|, i requires 0 <= i < |hs| => RecordOrSkip(env, page, hs[i]));
    if |hs| > 0 {
      var tail := seq(|hs[1..]|, i requires 0 <= i < |hs[1..]| => RecordOrSkip(env, page, hs[1..][i]));
      assert candidates[1..] == tail;
      DefinedCandidatesAreExported(env, page, hs[1..]);
    }
  }

  /** The records of a page are exactly its exportable highlights, mapped, in
      their original order. */
  lemma PageRecordsAreExportedInOrder(env: ExportEnv, page: Page)
    ensures PageToReadwiseHighlight(env, page) == Exported(env, page, page.highlights.GetOr([]))
  {
    if page.highlights.Some? {
      DefinedCandidatesAreExported(env, page, page.highlights.value);
    }
  }

  /** `pages.flatMap(pageToReadwiseHighlight)`. */
  function FlatMapPages(env: ExportEnv, pages: seq<Page>): seq<ReadwiseHighlight> {
    if |pages| == 0 then []
    else PageToReadwiseHighlight(env, pages[0]) + FlatMapPages(env, pages[1..])
  }

  /** Reference definition: each page's exportable highlights, mapped, page after page. */
  function AllExported(env: ExportEnv, pages: seq<Page>): seq<ReadwiseHighlight> {
    if |pages| == 0 then []
    else Exported(env, pages[0], pages[0].highlights.GetOr([])) + AllExported(env, pages[1..])
  }

  /** The flattened records are exactly the exportable highlights of all pages,
      in page order and, within a page, in highlight order. */
  lemma {:induction false} FlatMapPagesExported(env: ExportEnv, pages: seq<Page>)
    ensures FlatMapPages(env, pages) == AllExported(env, pages)
  {
    if |pages| > 0 {
      PageRecordsAreExportedInOrder(env, pages[0]);
      FlatMapPagesExported(env, pages[1..]);
    }
  }

  /* --------------------------------------------------------- posting */

  /** How one POST settled: a response with its status, an HTTP client error
      (with the response status when there was a response), or another error. */
  datatype PostOutcome = Responded(status: int) | AxiosError(responseStatus: Option<int>) | OtherError

  const TooManyRequests := 429
  const MaxRetries := 3

  predicate Retriable(o: PostOutcome, retryCount: nat) {
    o == AxiosError(Some(TooManyRequests)) && retryCount < MaxRetries
  }

  datatype SyncResult = SyncResult(ok: bool, attempts: nat)

  /** `syncWithReadwise`: attempt `retryCount` gets `post(retryCount)`; a 429
      is retried while fewer than 3 retries were made, anything else ends the
      call, successfully only for a response with status 200. */
  function SyncWithReadwise(post: nat -> PostOutcome, retryCount: nat): (r: SyncResult)
    ensures r.attempts >= 1
    ensures retryCount <= MaxRetries ==> r.attempts <= MaxRetries + 1 - retryCount
    ensures r.ok <==> post(retryCount + r.attempts - 1) == Responded(200)
    ensures forall k :: retryCount <= k < retryCount + r.attempts - 1 ==>
      post(k) == AxiosError(Some(TooManyRequests))
    ensures !Retriable(post(retryCount + r.attempts - 1), retryCount + r.attempts - 1)
    decreases if retryCount < MaxRetries then MaxRetries - retryCount else 0
  {
    match post(retryCount)
    case Responded(status) => SyncResult(status == 200, 1)
    case AxiosError(status) =>
      if status == Some(TooManyRequests) && retryCount < MaxRetries then
        var rest := SyncWithReadwise(post, retryCount + 1);
        SyncResult(rest.ok, rest.attempts + 1)
      else SyncResult(false, 1)
    case OtherError => SyncResult(false, 1)
  }

  /** A call from the start makes at most four POST attempts, and it makes all
      four only when the first three were rate limited. */
  lemma AtMostFourAttempts(post: nat -> PostOutcome)
    ensures 1 <= SyncWithReadwise(post, 0).attempts <= 4
    ensures SyncWithReadwise(post, 0).attempts == 4 ==>
      post(0) == post(1) == post(2) == AxiosError(Some(429))
  {
  }

  /** The outcome of `export`: whether it succeeded, how many POSTs it made,
      whether the integration's `syncedAt` was updated, and what it sent. */
  datatype ExportResult = ExportResult(ok: bool, attempts: nat, syncedAtUpdated: bool, sent: seq<ReadwiseHighlight>)

  function Export(env: ExportEnv, pages: seq<Page>, post: nat -> PostOutcome): (r: ExportResult)
    ensures r.sent == FlatMapPages(env, pages)
    ensures |r.sent| == 0 ==> r.ok && r.attempts == 0
    ensures |r.sent| > 0 ==> 1 <= r.attempts <= MaxRetries + 1
    ensures r.syncedAtUpdated <==> r.ok
    ensures |r.sent| > 0 ==> (r.ok <==> post(r.attempts - 1) == Responded(200))
  {
    var highlights := FlatMapPages(env, pages);
    var result := if |highlights| > 0 then SyncWithReadwise(post, 0) else SyncResult(true, 0);
    ExportResult(result.ok, result.attempts, result.ok, highlights)
  }

  /** `export` sends exactly the exportable highlights of the pages, and it
      POSTs nothing iff there is none. */
  lemma ExportSendsExportable(env: ExportEnv, pages: seq<Page>, post: nat -> PostOutcome)
    ensures Export(env, pages, post).sent == AllExported(env, pages)
    ensures Export(env, pages, post).attempts == 0 <==> AllExported(env, pages) == []
  {
    FlatMapPagesExported(env, pages);
  }
}

=== FILE: utf16.dfy ===
/** String length as the modelled programs measure it.

    A Dafny `char` is a Unicode scalar value, while Kotlin's `String.length`
    and JavaScript's `String.prototype.length` count UTF-16 code units: a
    character outside the Basic Multilingual Plane takes two of them (a
    surrogate pair). Every length comparison of the sources goes through
    `Length`. */
module Utf16 {

  /** Code units `c` takes in UTF-16. */
  function CharUnits(c: char): (n: nat)
    ensures n == 1 || n == 2
    ensures n == 2 <==> c as int > 0xFFFF
  {
    if c as int > 0xFFFF then 2 else 1
  }

  /** `s.length` in Kotlin and JavaScript. */
  function Length(s: string): (n: nat)
    ensures |s| <= n <= 2 * |s|
  {
    if |s| == 0 then 0 else CharUnits(s[0]) + Length(s[1..])
  }

  /** A string of Basic Multilingual Plane characters is as long in UTF-16 as in characters. */
  lemma {:induction false} BmpLength(s: string)
    requires forall i :: 0 <= i < |s| ==> s[i] as int <= 0xFFFF
    ensures Length(s) == |s|
  {
    if |s| > 0 {
      assert forall i :: 0 <= i < |s[1..]| ==> s[1..][i] == s[i + 1];
      BmpLength(s[1..]);
    }
  }

  /** Lengths add up under concatenation. */
  lemma {:induction false} LengthConcat(a: string, b: string)
    ensures Length(a + b) == Length(a) + Length(b)
  {
    if |a| > 0 {
      assert (a + b)[0] == a[0];
      assert (a + b)[1..] == a[1..] + b;
      LengthConcat(a[1..], b);
    } else {
      assert a + b == b;
    }
  }

  /** A string of characters outside the Basic Multilingual Plane is twice as
      long in UTF-16 as in characters. */
  lemma {:induction false} AstralLength(s: string)
    requires forall i :: 0 <= i < |s| ==> s[i] as int > 0xFFFF
    ensures Length(s) == 2 * |s|
  {
    if |s| > 0 {
      assert forall i :: 0 <= i < |s[1..]| ==> s[1..][i] == s[i + 1];
      AstralLength(s[1..]);
    }
  }

  /** Two U+1F600 characters are four code units long. */
  lemma AstralCountsTwice()
    ensures |"\U{1F600}\U{1F600}"| == 2 && Length("\U{1F600}\U{1F600}") == 4
  {
  }
}

=== FILE: wrappers.dfy ===
/** Nullable values of the modelled programs: Kotlin `T?`, TypeScript `T | undefined`. */
module Wrappers {

  datatype Option<+T> = None | Some(value: T) {

    /** The value, or `default` when absent (Kotlin's `?:`, TypeScript's `??`). */
    function GetOr(default: T): T {
      match this
      case Some(v) => v
      case None => default
    }
  }
}
